=== FILE: README.md ===
# Blob stamping on a 32 x 32 grid, in Dafny

This project models the integer core of a Unity prototype that paints
"influence blobs" onto a 32 x 32 map. A blob is a square falloff kernel of
side `2r + 1` centred on an anchor cell. Each kernel cell holds the falloff
curve's value at that cell's squared distance from the centre. The kernel is
clipped against the map with `Rectangle.GetOverlap` and then added (`ADD`) or
subtracted (`SUB`) into a named integer layer of a `DataManager`, in place.
An `EntityManager` records, per cell, the id of the entity standing there and
the radius it was stamped with. A click on a cell toggles it. An empty cell
takes the pressed kind and is stamped with that kind's `add` mode. An
occupied cell is emptied and stamped, at its stored radius, with the `remove`
mode and the layer of the kind whose key is held. That undoes the occupant's
stamp only when the held key's kind has the occupant's layer and a `remove`
mode opposite to the occupant's `add`, as the occupant's own kind does (see
Findings). The
class `Stamping` performs the corrected toggle, which takes the mode and layer
from the occupant's kind; the toggle as written is `ToggleAsWritten` and
`ToggleWorldAsWritten`. The `land_value` layer is derived from `pollution` as
`255 - pollution`.

The files follow the source:

- `csharp.dfy` (module `CSharp`) holds the pieces of C# semantics the code relies on:
  - `uint`;
  - truncating `/` and `%`;
  - `Mathf.FloorToInt` of an integer quotient;
  - `Array.IndexOf` and `List<T>.Remove`.
- `point2.dfy` (`Points`) models `Point2.cs`.
- `rectangle.dfy` (`Rectangles`) models `Rectangle.cs`.
- `grid.dfy` (`MapGrid`) holds the map constants, `mapRect` and the index/coordinate helpers of `Stamping.cs`.
- `kernel.dfy` (`Kernel`) models `GetStampBuffer` and `DrawFalloff`.
- `data_manager.dfy` (`DataManagement`) and `entity_manager.dfy` (`EntityManagement`) model the two stores as classes over arrays.
- `stamping.dfy` (`Stamping`) holds four things:
  - the stamp's specification, `Stamped`, and the proof that the two loops of `StampBlobToMap` compute it;
  - the toggle, as a step over a value `World`;
  - `ResidueKinds`, `EmptyWorld` and `UnitCurve`, the concrete data behind the Findings counterexample;
  - the class `Stamping`, whose methods change the stores in place.

The falloff curve (`AnimationCurve.Evaluate`, scaled by 255 and rounded) is a
parameter `Curve`, a function of the clamped squared distance and the radius.
For `r >= 1`, `clamp01(d / r²)` is 1 exactly when `d >= r²`. Any rounding is
a fixed function of `(d, r)`. So reading the curve at `min(d, r²)` keeps every
property of the source that does not depend on the curve's shape. At `r = 0`
the source divides `0f` by `0f` and evaluates the curve at NaN. The model's
`curve(0, 0)` stands for whatever weight that evaluation gives.

C# `int` is read as unbounded, and the `float` steps as exact. The agreement
with the program has three conditions:
- The radius is at most 2047. Then every buffer index is below 2²⁴. The
  quotient `(float)i / line` is rounded, but its floor is still the exact one
  (see the `CSharp.FloorDiv` line under "## Left out").
- Every weight is an integer below 2²⁴ in magnitude. Then its copy into a
  `float` field of `Vector3` and back is exact, whatever the radius. For
  `r >= 1` and curve values in [0, 1], the weights lie in [0, 255].
- Every layer cell stays within ±(2³¹ − 256), which keeps `255 - pollution`
  within `int`. With weights of at most 255, leaving that range takes more
  than eight million stamps on one cell. At `r = 0` the weight comes from the
  NaN evaluation, and none of these bounds covers it.

## Model

| member | source | states |
|---|---|---|
| CSharp.DivTruncates | Assets/Scripts/Point2.cs:52-54 | C# integer division truncates toward zero. The remainder is smaller than the divisor in magnitude and has the dividend's sign. |
| CSharp.Rem | Assets/Scripts/Stamping.cs:220 | C# `%`: the result is smaller than the divisor in magnitude and has the sign of the dividend. |
| CSharp.RemNonNegative | Assets/Scripts/Stamping.cs:227-233 | For a non-negative index and a positive width, C#'s `%` and `/` agree with Euclidean ones. |
| CSharp.FloorDiv | Assets/Scripts/Stamping.cs:221 | `Mathf.FloorToInt((float)i / line)` is the floor of the quotient: `q*b <= a < q*b + b` for `b > 0`. |
| CSharp.IndexOf | Assets/Scripts/EntityManager.cs:35 | `Array.IndexOf` gives the first index holding the value, or -1 exactly when no element does. |
| CSharp.ListRemove | Assets/Scripts/DataManager.cs:28 | `List.Remove` leaves the list alone when the element is absent, and otherwise shortens it by one. |
| CSharp.ListRemoveFirst | Assets/Scripts/DataManager.cs:28 | When the element is present, `Remove` takes out exactly its first occurrence and keeps the other elements in their order. |
| CSharp.ListRemoveExact | Assets/Scripts/DataManager.cs:26-29 | On a duplicate-free list, `Remove` takes out exactly the given name and keeps the list duplicate-free. |
| Points.Copy | Assets/Scripts/Point2.cs:24-27 | The copy constructor yields a point `==` to its argument. |
| Points.Add | Assets/Scripts/Point2.cs:33-35 | `+` is componentwise. |
| Points.Sub | Assets/Scripts/Point2.cs:37-39 | `a - b` is the point that gives back `a` when `b` is added. |
| Points.Neg | Assets/Scripts/Point2.cs:40-42 | Unary `-` is the additive inverse: `a + (-a) == zero`. |
| Points.Scale | Assets/Scripts/Point2.cs:44-46 | `p * c` is componentwise. |
| Points.Divide | Assets/Scripts/Point2.cs:52-54 | `p / c` leaves, in each component, a remainder smaller than `c` that has the dividend's sign. This is truncating division. |
| Points.EqualityOperators | Assets/Scripts/Point2.cs:56-71 | `==` holds iff the points are equal, and `!=` is its negation. `Equals` on a boxed `Point2` agrees with `==`, and `Equals` on anything else is false. |
| Points.AddLaws | Assets/Scripts/Point2.cs:33-35 | `+` is commutative and associative, with `zero` as identity. |
| Points.SubLaws | Assets/Scripts/Point2.cs:33-42 | `(a + b) - b == a`, `a - b == a + (-b)`, and `-(-a) == a`. |
| Points.Directions | Assets/Scripts/Point2.cs:84-106 | `down == -up`, `left == -right`, and `up + right == one`. |
| Points.ScaleLaws | Assets/Scripts/Point2.cs:44-46 | `* int` distributes over `+`, composes multiplicatively, and `p * -1 == -p`. |
| Points.DivideTruncates | Assets/Scripts/Point2.cs:52-54 | Illustration only (truncation for all inputs is `Divide`'s ensures): `(-7, 7) / 2 == (-3, 3)`, where floor division would give `(-4, 3)`. |
| Points.DivideUndoesScale | Assets/Scripts/Point2.cs:44-54 | `(p * c) / c == p` for every non-zero `c`. |
| Rectangles.NewRectangle | Assets/Scripts/Rectangle.cs:11-16 | The constructor stores top, right, bottom and left into `t`, `r`, `b` and `l`, in that argument order. |
| Rectangles.GetOverlap | Assets/Scripts/Rectangle.cs:18-25 | The result lies within `a`. Translated by `apos`, it lies within `b`. It contains exactly the points of `a` whose translation lies in `b`. |
| Rectangles.OverlapOfInside | Assets/Scripts/Rectangle.cs:18-25 | When `a` placed at `apos` already fits in `b`, the overlap is `a` itself. |
| Rectangles.OverlapIdempotent | Assets/Scripts/Rectangle.cs:18-25 | Clipping the overlap again against the same `b` at the same `apos` changes nothing. |
| MapGrid.CoordRoundTrip | Assets/Scripts/Stamping.cs:227-229 | For `0 <= i < 1024`, `GetCoord(i)` lies on the map and `GetIndex(GetCoord(i)) == i`. |
| MapGrid.IndexInRange | Assets/Scripts/Stamping.cs:243-245 | Every map cell's index lies in `[0, 1024)`. |
| MapGrid.IndexRoundTrip | Assets/Scripts/Stamping.cs:227-229 | For every map cell `p`, `GetCoord(GetIndex(p)) == p`. |
| MapGrid.CoordInRoundTrip | Assets/Scripts/Stamping.cs:231-233 | For `i >= 0` and `w > 0`, `GetCoord(i, w)` has a column in `[0, w)`, and `GetIndex(GetCoord(i, w), w) == i`. |
| MapGrid.IndexInRoundTrip | Assets/Scripts/Stamping.cs:247-249 | A cell whose column lies in `[0, w)` and whose row is non-negative survives `GetIndex(·, w)` followed by `GetCoord(·, w)`. |
| Kernel.GetStampBuffer | Assets/Scripts/Stamping.cs:211-214 | Returns a fresh, all-zero buffer of length `(2r + 1)²`. |
| Kernel.DrawFalloff | Assets/Scripts/Stamping.cs:216-225 | Afterwards every cell `i` holds the falloff at the squared distance of `i`'s offset from the centre `(r, r)`. |
| Kernel.KernelAtOffset | Assets/Scripts/Stamping.cs:216-225 | The cell at offset `(x, y)`, with `\|x\|, \|y\| <= r`, lies inside the buffer and holds the falloff at `x² + y²`. |
| Kernel.KernelSymmetric | Assets/Scripts/Stamping.cs:216-225 | The kernel is invariant under mirroring in x, mirroring in y, and transposition. |
| Kernel.KernelCentreAndRim | Assets/Scripts/Stamping.cs:216-225 | The centre holds the curve at 0. Every cell with `x² + y² >= r²` holds one and the same value, the clamped one. |
| DataManagement.Zeros | Assets/Scripts/DataManager.cs:22 | A new layer `new int[layerSize]` has `layerSize` cells, all 0. |
| DataManagement.SnapshotAdd | Assets/Scripts/DataManager.cs:22 | Adding an array under a new name adds its contents under that name, and nothing else changes. |
| DataManagement.SnapshotRemove | Assets/Scripts/DataManager.cs:27 | Removing a name removes exactly its contents. |
| DataManagement.SnapshotWrite | Assets/Scripts/DataManager.cs:39-50 | When every other layer keeps its contents, only the written layer's entry changes. |
| DataManagement.RemoveKeepsWellFormed | Assets/Scripts/DataManager.cs:26-29 | Removing a layer keeps every layer `layerSize` long and keeps the arrays distinct. |
| DataManagement.AddKeepsWellFormed | Assets/Scripts/DataManager.cs:17-24 | Adding a fresh `layerSize` array under a new name keeps the layers well formed. |
| DataManagement.RemoveName | Assets/Scripts/DataManager.cs:26-29 | If `layerNames` lists the keys once each, then after `Remove(name)` it lists the remaining keys once each. |
| DataManagement.AppendName | Assets/Scripts/DataManager.cs:22-23 | Appending a new name to a list of the keys lists the keys with that name added. |
| DataManagement.DataManager.constructor | Assets/Scripts/DataManager.cs:11-15 | The store starts with no layers and no names, and with the given layer size. |
| DataManagement.DataManager.AddLayer | Assets/Scripts/DataManager.cs:17-24 | An existing name changes nothing. A new name gets a fresh zeroed layer of `layerSize` cells and is appended to `layerNames`, and the other layers keep their contents. The invariant is preserved: every layer is `layerSize` long and `layerNames` lists the keys exactly once. |
| DataManagement.DataManager.RemoveLayer | Assets/Scripts/DataManager.cs:26-29 | Drops the layer and its name. An unknown name changes nothing. The other layers keep their contents and the invariant is preserved. |
| DataManagement.DataManager.GetLayer | Assets/Scripts/DataManager.cs:31-37 | Returns `null` iff the name is unknown, and otherwise the stored array itself. |
| DataManagement.DataManager.SetValue | Assets/Scripts/DataManager.cs:39-50 | On a known layer with `index < layerSize`, writes exactly that one cell. With an unknown name or an index past the end it is a no-op. Every other `GetValue` is unchanged. |
| DataManagement.DataManager.GetValue | Assets/Scripts/DataManager.cs:52-63 | Returns -1 for an unknown name or an index past the end, and otherwise the layer's current value at that index. |
| EntityManagement.LookupData | Assets/Scripts/EntityManager.cs:34-41 | `GetData(uint)` on two columns: -1 when no cell holds the id, otherwise the datum at the first cell that does. |
| EntityManagement.EntityManager.constructor | Assets/Scripts/EntityManager.cs:9-16 | `numEntities == mapSize`, and every id and datum is 0. |
| EntityManagement.EntityManager.GetEntity | Assets/Scripts/EntityManager.cs:18-24 | Returns 0 for an index past the end, otherwise the stored id. |
| EntityManagement.EntityManager.GetData | Assets/Scripts/EntityManager.cs:26-32 | Returns -1 for an index past the end, otherwise the stored datum. |
| EntityManagement.EntityManager.GetDataOfEntity | Assets/Scripts/EntityManager.cs:34-41 | Agrees with `LookupData` on the current arrays. |
| EntityManagement.EntityManager.SetEntity | Assets/Scripts/EntityManager.cs:43-46 | Changes index `i` of both arrays and nothing else. Afterwards `GetEntity(i)` and `GetData(i)` read back what was set. |
| Stamping.ClipBounds | Assets/Scripts/Stamping.cs:46-51 | For an anchor on the map and `r >= 0`, the clip against `mapRect` contains the origin and stays within `[-r, r]²`. Translated by the anchor, it stays on the map. |
| Stamping.ClipIsSquareOnMap | Assets/Scripts/Stamping.cs:180-181 | An offset is in the clip iff it lies within `r` on both axes and the anchor plus the offset lies on the map. |
| Stamping.Stamped | Assets/Scripts/Stamping.cs:179-208 | The layer after one stamp, defined cell by cell without the source's loops: each cell gains `mode` times the drawn falloff at its offset from the anchor when the offset lies within the radius, and stays as it was otherwise. `BlitIsStamp` ties the source's loops to it. |
| Stamping.StampedCell | Assets/Scripts/Stamping.cs:193-207 | Every cell `coord + d` with `\|d.x\|, \|d.y\| <= r` on the map changes by exactly `mode` times the falloff at `\|d\|²`. |
| Stamping.StampedCellReadsKernel | Assets/Scripts/Stamping.cs:193-207 | Each touched cell changes by exactly `mode × buffer[(d.y + r)(2r + 1) + d.x + r]`, and that buffer index is in range. |
| Stamping.StampedElsewhere | Assets/Scripts/Stamping.cs:186-208 | A cell farther than `r` from the anchor on either axis is left unchanged. |
| Stamping.StampThenUnstamp | Assets/Scripts/Stamping.cs:17-20 | A stamp followed by the opposite-signed stamp, with the same radius and anchor, restores the layer exactly. |
| Stamping.StampsCommute | Assets/Scripts/Stamping.cs:179-208 | Two stamps commute, so one blob can be removed after others were stamped over it. |
| Stamping.WalkOffsetRank | Assets/Scripts/Stamping.cs:193-199 | Step `k` of the row-by-row walk is a cell of the clip, and its rank in the walk is `k`. |
| Stamping.WalkRankOffset | Assets/Scripts/Stamping.cs:193-199 | Every cell of the clip is visited, at the step equal to its rank. |
| Stamping.WalkStep | Assets/Scripts/Stamping.cs:196-199 | Within a row the column advances by one. At the row's end the column wraps to 0 and the row advances. |
| Stamping.ModSucc | Assets/Scripts/Stamping.cs:196 | `n = (n + 1) % width` wraps to 0 exactly at `width`. |
| Stamping.ClipArea | Assets/Scripts/Stamping.cs:188-190 | For an anchor on the map, `width >= 1` and `len >= 1`. |
| Stamping.BufferWalk | Assets/Scripts/Stamping.cs:193-195 | Every kernel read `start + n` lies in `[0, (2r + 1)²)` and holds the weight recorded for that step. `GetCoord(start + n, bufferWidth)` gives the kernel coordinates recorded for it. |
| Stamping.ReadSample | Assets/Scripts/Stamping.cs:193-195 | Reading walk step `k` out of a drawn buffer yields the step's sample. |
| Stamping.BufferWalkStep | Assets/Scripts/Stamping.cs:196-199 | The buffer index moves one cell right within a row, and moves to the next row's start after the row's end. |
| Stamping.CropStart | Assets/Scripts/Stamping.cs:186-187 | `start` (with `n = 0`) is the buffer index of the clip's bottom-left cell, the walk's first step. |
| Stamping.CropStep | Assets/Scripts/Stamping.cs:196-199 | Updating `n` and `start` as the loop does keeps `start + n` on the buffer index of the walk's next step. |
| Stamping.CropIteration | Assets/Scripts/Stamping.cs:193-199 | One iteration of the first loop writes the walk step's sample and moves on to the next step. |
| Stamping.WalkTarget | Assets/Scripts/Stamping.cs:203-206 | Walk step `k` lands on a map cell in `[0, 1024)` whose offset from the anchor is the step's offset. |
| Stamping.WalkHits | Assets/Scripts/Stamping.cs:203-206 | Step `k` lands on cell `j` iff `j`'s offset lies in the clip and has rank `k`. |
| Stamping.CroppedSamples | Assets/Scripts/Stamping.cs:189-200 | `croppedBuffer` has `len = width × height` entries, entry `k` being walk step `k`'s kernel coordinates and weight. |
| Stamping.CropSetup | Assets/Scripts/Stamping.cs:186-190 | `bufferWidth` is the kernel's side, `start` the buffer index of the clip's bottom-left cell, `width` the clip's column count, and `len` its cell count. |
| Stamping.CropKernel | Assets/Scripts/Stamping.cs:192-200 | The first loop fills `croppedBuffer`, which has one entry per clip cell, with exactly `CroppedSamples`. |
| Stamping.CropStamp | Assets/Scripts/Stamping.cs:180-200 | Clipping, drawing the kernel and the first loop together yield a fresh `croppedBuffer` equal to `CroppedSamples`. |
| Stamping.CroppedSamplesLand | Assets/Scripts/Stamping.cs:203-206 | Every sample of the first loop lands on a map cell: the second loop writes only indices in `[0, 1024)`. |
| Stamping.BlitStepAt | Assets/Scripts/Stamping.cs:206-207 | One more sample changes only its own cell, by its weight times the mode. |
| Stamping.SampleDelta | Assets/Scripts/Stamping.cs:193-207 | Sample `k` lands on walk step `k`'s cell and carries exactly that cell's stamp weight. |
| Stamping.BlitOnce | Assets/Scripts/Stamping.cs:202-208 | If only sample `r` lands on cell `j`, the loop adds to `j` exactly sample `r`'s weight times the mode. |
| Stamping.OnlySampleOnCell | Assets/Scripts/Stamping.cs:193-206 | Exactly one sample lands on each covered cell, and none lands on an uncovered one. |
| Stamping.RankedDelta | Assets/Scripts/Stamping.cs:193-207 | The one sample landing on a cell carries that cell's stamp weight. An uncovered cell has weight 0. |
| Stamping.BlitCell | Assets/Scripts/Stamping.cs:202-208 | After the second loop, each cell has changed by exactly its stamp weight. |
| Stamping.BlitIsStamp | Assets/Scripts/Stamping.cs:186-208 | The two loops together compute `Stamped`: each cell within `r` of the anchor changes by `mode` times its falloff, and every other cell is unchanged. |
| Stamping.BlitCropped | Assets/Scripts/Stamping.cs:202-208 | The second loop updates the layer in place to `Blit` of its old contents. |
| Stamping.Stamping.BlitLayer | Assets/Scripts/Stamping.cs:202-208 | Seen from the store, the second loop turns the named layer into `Stamped` of its old contents and leaves every other layer as it was. |
| Stamping.OwnerOfKind | Assets/Scripts/Stamping.cs:67-70 | With unique ids, `dataEntities[entityMap[id]]` is the kind that carries `id`. |
| Stamping.LookupStoredRadius | Assets/Scripts/Stamping.cs:112 | In a consistent table, `GetData(eID)` on an occupied cell's id returns that cell's own stored radius. |
| Stamping.OccupantKind | Assets/Scripts/Stamping.cs:105-117 | The occupant of an occupied cell is a configured kind. |
| Stamping.ToggleAsWritten | Assets/Scripts/Stamping.cs:105-117 | The click as the source writes it: an occupied cell is cleared to id 0 and stamped at the radius stored for its id, with the pressed kind's `remove` mode and layer; an empty cell takes the pressed kind's id and radius and is stamped with its `add` mode. |
| Stamping.ToggleDecides | Assets/Scripts/Stamping.cs:105-117 | On an empty cell the toggle places the pressed kind with its id, radius and `add` mode. On an occupied cell it empties the cell and uses the occupant's `remove` mode and layer, at the stored radius. |
| Stamping.ToggleKeepsValid | Assets/Scripts/Stamping.cs:105-117 | A toggle keeps the entity table consistent with the configured kinds and keeps every layer 1024 cells long. |
| Stamping.ApplyThenUndo | Assets/Scripts/Stamping.cs:116-117 | Writing the cell and stamping, then writing the cell back and stamping the same layer at the same radius with the opposite sign, restores the whole world. This holds also when the layer is missing and both stamps throw. |
| Stamping.PlaceThenRemoveRestores | Assets/Scripts/Stamping.cs:105-117 | Under the corrected toggle (`ToggleWorld`), placing a kind on an empty cell and toggling the cell again, with any key, restores every layer and both entity columns. As written, it holds with the placed kind's own key (`AsWrittenAgreesOnOwnKind`) or with a same-layer key of opposite sign (`AsWrittenSameLayerUndoes`), while `AsWrittenResidue` exhibits a key of a kind on another layer for which it fails (an adding kind placed, a subtracting kind pressed, nonzero centre weight). |
| Stamping.UnknownLayerThrows | Assets/Scripts/Stamping.cs:105-117 | A kind on a layer the store lacks: a click on an empty cell writes the cell with the kind's id and radius and then throws, leaving every layer unchanged. Under the corrected toggle (`ToggleWorld`), the next click, with any key, empties the cell, throws again, and restores the whole state. As written, that holds for the same key or a key whose kind is also on a missing layer. |
| Stamping.AsWrittenAgreesOnOwnKind | Assets/Scripts/Stamping.cs:105-117 | The toggle as written agrees with the corrected one on empty cells, and when the pressed kind is the occupant. |
| Stamping.AsWrittenRemovesWithPressedKind | Assets/Scripts/Stamping.cs:105-117 | As written, placing one kind and pressing the key of another kind on a different layer on the same cell has two effects. The placed stamp stays in its layer, and the pressed kind's layer is stamped, at the placed radius, with the pressed kind's `remove` mode. |
| Stamping.AsWrittenSameLayerUndoes | Assets/Scripts/Stamping.cs:105-117 | As written, pressing the key of another kind that has the placed kind's layer and a `remove` mode opposite to the placed kind's `add` still restores the whole world. |
| Stamping.AsWrittenResidue | Assets/Scripts/Stamping.cs:110-117 | As written, that sequence empties the cell but changes both layers by the curve's centre value, so the world differs from where it started. |
| Stamping.EmptyWorldIsInput | Assets/Scripts/Stamping.cs:53-56 | The empty map with two kinds on two layers satisfies `AsWrittenResidue`'s premises. |
| Stamping.NewStore | Assets/Scripts/Stamping.cs:54-56 | The store has the layers `pollution` and `land_value`, in that order, both fresh and zeroed. |
| Stamping.Stamping.StateValid | Assets/Scripts/Stamping.cs:37-39 | A valid engine's state is a valid world. |
| Stamping.Stamping.constructor | Assets/Scripts/Stamping.cs:53-84 | Start-up creates the two layers and an empty entity table. Deriving land value from the zero pollution leaves `pollution` at 0 and `land_value` at 255 everywhere. |
| Stamping.Stamping.StampBlobToMap | Assets/Scripts/Stamping.cs:179-209 | On a known layer, the named layer becomes `Stamped` of its old contents and every other layer is unchanged. On an unknown layer `GetLayer` answers `null` and the second loop's first write throws: `ok` is false and nothing changes. |
| Stamping.Stamping.OnPollutionUpdated | Assets/Scripts/Stamping.cs:169-175 | `land_value[i] == 255 - old(pollution[i])` for every `i < pollution.Length`, and the cells past `pollution.Length` are unchanged. When `pollution` is not `land_value` itself, `pollution` is not modified and `land_value[i] + pollution[i] == 255`. |
| Stamping.Stamping.Toggle | Assets/Scripts/Stamping.cs:105-117 | A click with key `key` performs the corrected `ToggleWorld` on the engine's state and keeps the engine valid. `ok` is false exactly when the click throws on an unknown layer (`ToggleThrows`). |
| Stamping.Stamping.Decide | Assets/Scripts/Stamping.cs:105-115 | Reads the cell and computes the corrected toggle decision, with the occupant's kind giving the removal's mode and layer. |
| Stamping.Stamping.Apply | Assets/Scripts/Stamping.cs:116-117 | Writes the cell with `SetEntity`, then stamps, and so performs `ApplyStep` on the state. On an unknown layer the cell stays written and no layer changes, and `ok` is false. |
| Stamping.Stamping.ValidFromWorld | Assets/Scripts/Stamping.cs:37-39 | Well-formed stores whose state is a valid world make a valid engine. |

## Left out

- The Unity lifecycle and presentation: `LayerViz`, mesh building, `DrawLayers`, `OnGUI`, the entity colouring at the end of `Update`, and the `Debug.Log*` calls. The logs have no effect on the state.
- The raycast and key polling of `Update`. The clicked cell (`coord`) and the index of the first pressed key are parameters of `Toggle`.
- `SnapToMap` and `GetIndex(Vector3)`: they floor the hit point's float coordinates. The model takes the resulting cell directly.
- The dirty-layer dispatch after a click (`Stamping.cs` lines 118 and 122-130), which re-runs the layer handlers. After a toggle on `pollution` the source also recomputes `land_value`; `Toggle` does not. `OnPollutionUpdated` is modelled as its own method, and `OnLandValueUpdated` is empty.
- The float evaluation of the falloff curve, `Mathf.Clamp01` and `Mathf.RoundToInt`: the curve is the parameter `Curve`.
- `Point2`'s float constructor, `* float`, the `Vector2` conversion, `ToString`, the extension methods, and `GetHashCode`, which relies on 32-bit wrap-around.
- 32-bit overflow of C# `int` everywhere: integers are unbounded.
- Stamping.Stamping.StampBlobToMap: requires `radius >= 0` and an anchor on the map. The source has no meaningful result for a negative radius. For an anchor off the map, `len` can be a positive product of two negative extents.
- Stamping.Stamping.StampBlobToMap: is split into `CropStamp` and `BlitLayer`. `CropStamp` covers lines 180-190 and the first loop, through `CropSetup` and `CropKernel`. `BlitLayer` covers the second loop, through `BlitCropped`. `GetLayer` (line 191) is called after the first loop instead of just before it. The first loop does not touch the store, so the order has no effect, and on a missing layer the throw still comes at the second loop's first write.
- Stamping.Stamping.Toggle: performs the corrected toggle, not the one the source writes. On an occupied cell, `Decide` takes the `remove` mode and the layer from the occupant's kind, looked up through `entityMap`. The source (`Stamping.cs` lines 111 and 117) takes them from the pressed kind. The source's toggle is `ToggleAsWritten` and `ToggleWorldAsWritten`, and the Findings row relates the two. Apart from that, `Decide` and `Apply` keep the source's statements in order.
- Stamping.Stamping.constructor: requires the configured kinds to have unique, positive ids and non-negative radii (`KindsWellFormed`), and so does `Toggle`. `Awake`'s `entityMap.Add` throws on a duplicate id, and id 0 would be indistinguishable from an empty cell. A kind on a layer other than `pollution` and `land_value` is accepted. Each click that uses it writes the cell and then throws in `StampBlobToMap` (`UnknownLayerThrows`).
- CSharp.FloorDiv: reads `Mathf.FloorToInt((float)i / line)` as the exact floor. Its floor is exact only while `i < 2²⁴`, that is for radii up to 2047. For larger kernels the source's kernel coordinates can be off by one, and the model does not capture that.
- Stamping.Stamping.OnPollutionUpdated: requires `pollution` to be no longer than the map, since the source would throw past the end of `land_value`.
- DataManagement.DataManager.SetValue: requires a non-negative index on a known layer; the source throws on a negative one. `GetValue` is limited the same way.
- EntityManagement.EntityManager.SetEntity: requires an index on the map, and `GetEntity`/`GetData` require a non-negative one, since the source throws otherwise.
- Stamping.Stamping.constructor: states the two layers' contents one by one rather than through `OnPollutionUpdated`'s general contract.

## Findings

| source | as written | input that shows it | evidently intended | confidence | as-written member | corrected member |
|---|---|---|---|---|---|---|
| Assets/Scripts/Stamping.cs:110-117 | Removing an occupied cell's entity uses the `remove` mode and `dataLayer` of the kind whose key is held, not of the kind standing on the cell. | Place a factory (layer `pollution`) on the empty cell (0, 0), then click the same cell holding the park key (layer `land_value`). In the model's `EmptyWorld` (both layers zero, with the dirty-layer dispatch left out) and with `UnitCurve`, the cell is emptied, but `pollution[0]` stays 1 and `land_value[0]` becomes -1. In the program, which starts with `land_value` at 255 and re-derives it after the first click, take a factory of radius at least 1, both kinds adding on placement and subtracting on removal, and a centre weight `c = RoundToInt(255 * falloff(0))`. The cell ends empty with `pollution[0] == c` and `land_value[0] == 255 - 2c`, not 0 and 255. | Undo the occupant's own stamp: its kind, found through `entityMap`, gives the `remove` mode and layer. | not executed | Stamping.AsWrittenResidue | Stamping.PlaceThenRemoveRestores |

=== FILE: csharp.dfy ===
/**
  The few pieces of C# and .NET semantics that the stamping engine relies on:
  the `uint` range, integer division and remainder (which truncate toward zero,
  unlike Dafny's Euclidean operators), `Mathf.FloorToInt` of an integer quotient,
  `Array.IndexOf` and `List<T>.Remove`.
*/
module CSharp {

  /** C# `uint`. */
  type UInt32 = x: int | 0 <= x < 0x1_0000_0000

  function Abs(a: int): nat {
    if a < 0 then -a else a
  }

  /** Division with a known quotient and remainder: the quotient and remainder are unique. */
  lemma DivModUnique(n: int, w: int, q: int, m: int)
    requires w > 0 && 0 <= m < w && n == q * w + m
    ensures n / w == q && n % w == m
  {
    var q', m' := n / w, n % w;
    assert n == q' * w + m' && 0 <= m' < w;
    if q' > q {
      MulMonotone(q + 1, q', w);
      assert false;
    } else if q' < q {
      MulMonotone(q' + 1, q, w);
      assert false;
    }
  }

  lemma MulMonotone(a: int, b: int, w: int)
    requires a <= b && w >= 0
    ensures a * w <= b * w && (a - 1) * w + w == a * w
  {
  }

  /** C# `a / c` on `int`: the quotient truncated toward zero. */
  function Div(a: int, c: int): int
    requires c != 0
  {
    if (a < 0) == (c < 0) then Abs(a) / Abs(c) else -(Abs(a) / Abs(c))
  }

  /**
    `Div` is truncating division: the remainder it leaves is smaller than the
    divisor in magnitude and has the sign of the dividend. (Dafny's own `/`
    leaves a non-negative remainder instead.)
  */
  lemma DivTruncates(a: int, c: int)
    requires c != 0
    ensures Abs(a - Div(a, c) * c) < Abs(c)
    ensures a >= 0 ==> a - Div(a, c) * c >= 0
    ensures a <= 0 ==> a - Div(a, c) * c <= 0
    ensures a - Div(a, c) * c == Rem(a, c)
  {
    var A: int, C: int := Abs(a), Abs(c);
    DivModBasics(A, C);
    var Q, R := A / C, A % C;
    if a >= 0 && c > 0 {
      assert a - Div(a, c) * c == R;
    } else if a >= 0 {
      NegMul(Q, C);
      assert Div(a, c) * c == Q * C;
      assert a - Div(a, c) * c == R;
    } else if c > 0 {
      NegMul(Q, C);
      assert Div(a, c) * c == -(Q * C);
      assert a - Div(a, c) * c == -R;
    } else {
      NegMul(Q, C);
      assert Div(a, c) * c == -(Q * C);
      assert a - Div(a, c) * c == -R;
    }
  }

  lemma DivModBasics(n: int, w: int)
    requires w > 0
    ensures n == (n / w) * w + n % w && 0 <= n % w < w
  {
  }

  lemma NegMul(m: int, w: int)
    ensures (-m) * w == -(m * w) && m * (-w) == -(m * w)
  {
  }

  /** C# `a % c` on `int`: the remainder takes the sign of the dividend. */
  function Rem(a: int, c: int): (m: int)
    requires c != 0
    ensures Abs(m) < Abs(c)
    ensures a >= 0 ==> m >= 0
    ensures a <= 0 ==> m <= 0
  {
    if a >= 0 then a % Abs(c) else -((-a) % Abs(c))
  }

  /** On a non-negative dividend and a positive divisor, C#'s and Dafny's operators agree. */
  lemma RemNonNegative(a: int, c: int)
    requires a >= 0 && c > 0
    ensures Rem(a, c) == a % c && Div(a, c) == a / c
  {
  }

  /** `Mathf.FloorToInt((float)a / b)`, read exactly: the floor of the rational quotient. */
  function FloorDiv(a: int, b: int): (q: int)
    requires b != 0
    ensures b > 0 ==> q * b <= a < q * b + b
    ensures b < 0 ==> q * b >= a > q * b + b
  {
    if b > 0 then a / b else (-a) / (-b)
  }

  /** `Array.IndexOf(s, x)`: the first index holding `x`, or -1 when there is none. */
  function IndexOf<T(==)>(s: seq<T>, x: T): (i: int)
    ensures -1 <= i < |s|
    ensures i == -1 <==> x !in s
    ensures i >= 0 ==> s[i] == x && forall k :: 0 <= k < i ==> s[k] != x
  {
    if |s| == 0 then -1
    else if s[0] == x then 0
    else
      var i := IndexOf(s[1..], x);
      assert x in s[1..] ==> x in s;
      assert x in s && s[0] != x ==> x in s[1..];
      if i < 0 then -1 else i + 1
  }

  /** `List<T>.Remove(x)`: drops the first occurrence of `x`, if any. */
  function ListRemove<T(==)>(s: seq<T>, x: T): (r: seq<T>)
    ensures x !in s ==> r == s
    ensures x in s ==> |r| == |s| - 1
  {
    if |s| == 0 then s
    else if s[0] == x then s[1..]
    else
      assert x in s && s[0] != x ==> x in s[1..];
      [s[0]] + ListRemove(s[1..], x)
  }

  /** `Remove` takes out the first occurrence exactly and keeps the other elements in their order. */
  lemma {:induction false} ListRemoveFirst<T>(s: seq<T>, x: T)
    requires x in s
    ensures ListRemove(s, x) == s[..IndexOf(s, x)] + s[IndexOf(s, x) + 1..]
  {
    if s[0] != x {
      var t := s[1..];
      assert x in t by {
        var k :| 0 <= k < |s| && s[k] == x;
        assert t[k - 1] == x;
      }
      var i := IndexOf(t, x);
      assert IndexOf(s, x) == i + 1;
      calc {
        ListRemove(s, x);
        [s[0]] + ListRemove(t, x);
        { ListRemoveFirst(t, x); }
        [s[0]] + (t[..i] + t[i + 1..]);
        { assert [s[0]] + t[..i] == s[..i + 1]; assert t[i + 1..] == s[i + 2..]; }
        s[..i + 1] + s[i + 2..];
      }
    }
  }

  predicate NoDuplicates<T(==)>(s: seq<T>) {
    forall i, j :: 0 <= i < j < |s| ==> s[i] != s[j]
  }

  /** On a list without duplicates, `Remove` takes out exactly `x` and keeps the list duplicate-free. */
  lemma {:induction false} ListRemoveExact<T>(s: seq<T>, x: T)
    requires NoDuplicates(s)
    ensures NoDuplicates(ListRemove(s, x))
    ensures forall y :: y in ListRemove(s, x) <==> y in s && y != x
  {
    if |s| > 0 && s[0] != x {
      assert NoDuplicates(s[1..]) by {
        forall i, j | 0 <= i < j < |s[1..]| ensures s[1..][i] != s[1..][j] {
          assert s[1..][i] == s[i + 1] && s[1..][j] == s[j + 1];
        }
      }
      ListRemoveExact(s[1..], x);
      var r := ListRemove(s, x);
      assert r == [s[0]] + ListRemove(s[1..], x);
      assert s[0] !in s[1..] by {
        forall k | 0 <= k < |s[1..]| ensures s[1..][k] != s[0] {
          assert s[1..][k] == s[k + 1];
        }
      }
      forall i, j | 0 <= i < j < |r| ensures r[i] != r[j] {
        if i == 0 {
          assert r[j] in ListRemove(s[1..], x);
        } else {
          assert r[i] == ListRemove(s[1..], x)[i - 1] && r[j] == ListRemove(s[1..], x)[j - 1];
        }
      }
      forall y ensures y in r <==> y in s && y != x {
        assert y in s <==> y == s[0] || y in s[1..];
      }
    } else if |s| > 0 {
      assert forall k :: 0 <= k < |s[1..]| ==> s[1..][k] == s[k + 1];
      forall y ensures y in s[1..] <==> y in s && y != x {
        if y in s[1..] {
          var k :| 0 <= k < |s[1..]| && s[1..][k] == y;
          assert s[k + 1] == y;
        }
        assert y in s <==> y == s[0] || y in s[1..];
      }
    }
  }
}

=== FILE: data_manager.dfy ===
/**
  `DataManager`: a store of named integer layers, all of one length. Layers
  are live arrays: `GetLayer` hands out the stored array itself, and writes
  through it are seen by every later reader. Bad requests (a duplicate or
  unknown name, an index past the end) are logged and ignored, or answered
  with `null` or `-1`; the log is not modelled.
*/
module DataManagement {
  import opened CSharp

  /** A fresh layer's contents. */
  function Zeros(n: nat): (s: seq<int>)
    ensures |s| == n && forall i :: 0 <= i < n ==> s[i] == 0
  {
    seq(n, _ => 0)
  }

  /** The contents of a set of named layers: each array's current elements by name. */
  ghost function Snapshot(layers: map<string, array<int>>): map<string, seq<int>>
    reads layers.Values
  {
    map name | name in layers :: layers[name][..]
  }

  /** Adding a layer under a new name adds its contents under that name. */
  lemma SnapshotAdd(layers: map<string, array<int>>, name: string, layer: array<int>)
    requires name !in layers
    ensures Snapshot(layers[name := layer]) == Snapshot(layers)[name := layer[..]]
  {
    var after := Snapshot(layers[name := layer]);
    var expected := Snapshot(layers)[name := layer[..]];
    assert after.Keys == expected.Keys;
    forall n | n in after ensures after[n] == expected[n] {
      if n != name {
        assert layers[name := layer][n] == layers[n];
      }
    }
  }

  /** Dropping a name drops its contents. */
  lemma SnapshotRemove(layers: map<string, array<int>>, name: string)
    ensures Snapshot(layers - {name}) == Snapshot(layers) - {name}
  {
    var after := Snapshot(layers - {name});
    var expected := Snapshot(layers) - {name};
    assert after.Keys == expected.Keys;
  }

  /** Every layer has `size` cells and no two names share an array. */
  ghost predicate WellFormedLayers(layers: map<string, array<int>>, size: nat) {
    && (forall name :: name in layers ==> layers[name].Length == size)
    && (forall n1, n2 :: n1 in layers && n2 in layers && n1 != n2 ==> layers[n1] != layers[n2])
  }

  lemma RemoveKeepsWellFormed(layers: map<string, array<int>>, size: nat, name: string)
    requires WellFormedLayers(layers, size)
    ensures WellFormedLayers(layers - {name}, size)
  {
  }

  lemma AddKeepsWellFormed(layers: map<string, array<int>>, size: nat, name: string, layer: array<int>)
    requires WellFormedLayers(layers, size) && name !in layers && layer.Length == size
    requires forall n :: n in layers ==> layers[n] != layer
    ensures WellFormedLayers(layers[name := layer], size)
  {
  }

  /** When every layer but `name` still holds what `before` records, only `name`'s entry differs. */
  lemma SnapshotWrite(layers: map<string, array<int>>, name: string, before: map<string, seq<int>>)
    requires name in layers && before.Keys == layers.Keys
    requires forall n :: n in layers && n != name ==> layers[n][..] == before[n]
    ensures Snapshot(layers) == before[name := layers[name][..]]
  {
    var after := Snapshot(layers);
    var expected := before[name := layers[name][..]];
    assert after.Keys == expected.Keys;
  }

  /** `names` lists each key exactly once. */
  ghost predicate ListsKeys(names: seq<string>, keys: set<string>) {
    NoDuplicates(names) && forall n :: n in names <==> n in keys
  }

  /** Removing a name from the list of keys lists the remaining keys. */
  lemma RemoveName(names: seq<string>, keys: set<string>, name: string)
    requires ListsKeys(names, keys)
    ensures ListsKeys(ListRemove(names, name), keys - {name})
  {
    ListRemoveExact(names, name);
  }

  /** Appending a new name to the list of keys lists the keys with it. */
  lemma AppendName(names: seq<string>, keys: set<string>, name: string)
    requires ListsKeys(names, keys) && name !in keys
    ensures ListsKeys(names + [name], keys + {name})
  {
    assert forall i :: 0 <= i < |names| ==> (names + [name])[i] == names[i];
  }

  class DataManager {
    const layerSize: nat
    var layers: map<string, array<int>>
    var layerNames: seq<string>

    /** Every layer has `layerSize` cells, no two names share an array, and `layerNames` lists the names once each. */
    ghost predicate Valid()
      reads this
    {
      && WellFormedLayers(layers, layerSize)
      && ListsKeys(layerNames, layers.Keys)
    }

    /** The value of the store: each layer's current contents by name. */
    ghost function Contents(): map<string, seq<int>>
      reads this, layers.Values
    {
      Snapshot(layers)
    }

    constructor (layerSize: nat)
      ensures Valid() && this.layerSize == layerSize
      ensures layers == map[] && layerNames == []
    {
      this.layerSize := layerSize;
      layers := map[];
      layerNames := [];
    }

    /** Adds a zeroed layer under a new name; an existing name leaves everything as it was. */
    method AddLayer(name: string)
      requires Valid()
      modifies this
      ensures Valid()
      ensures name in old(layers) ==> layers == old(layers) && layerNames == old(layerNames)
      ensures name !in old(layers) ==>
        && name in layers && fresh(layers[name])
        && layers == old(layers)[name := layers[name]]
        && layerNames == old(layerNames) + [name]
      ensures Contents() == if name in old(layers) then old(Contents()) else old(Contents())[name := Zeros(layerSize)]
    {
      if name in layers {
        return;
      }
      ghost var before := Snapshot(layers);
      var layer := new int[layerSize](_ => 0);
      assert layer[..] == Zeros(layerSize);
      SnapshotAdd(layers, name, layer);
      AddKeepsWellFormed(layers, layerSize, name, layer);
      assert Snapshot(layers) == before;
      layers := layers[name := layer];
      assert Contents() == before[name := Zeros(layerSize)];
      AppendName(layerNames, old(layers).Keys, name);
      layerNames := layerNames + [name];
    }

    /** Drops a layer and its name; an unknown name changes nothing. */
    method RemoveLayer(name: string)
      requires Valid()
      modifies this
      ensures Valid()
      ensures layers == old(layers) - {name}
      ensures layerNames == ListRemove(old(layerNames), name)
      ensures Contents() == old(Contents()) - {name}
    {
      RemoveName(layerNames, layers.Keys, name);
      assert (layers - {name}).Keys == layers.Keys - {name};
      SnapshotRemove(layers, name);
      RemoveKeepsWellFormed(layers, layerSize, name);
      layers := layers - {name};
      layerNames := ListRemove(layerNames, name);
    }

    /** The live array of a layer, or `null` for an unknown name. */
    function GetLayer(name: string): (layer: array?<int>)
      reads this
      ensures layer == null <==> name !in layers
      ensures layer != null ==> layer == layers[name]
    {
      if name !in layers then null else layers[name]
    }

    /** Writes one cell of one layer. An unknown name or an index past the end is a no-op. */
    method SetValue(name: string, index: int, value: int)
      requires Valid()
      requires name in layers ==> index >= 0
      modifies layers.Values
      ensures Valid()
      ensures Contents() ==
        if name in layers && index < layerSize
        then old(Contents())[name := old(Contents()[name])[index := value]]
        else old(Contents())
      ensures name in layers && index < layerSize ==> GetValue(name, index) == value
      ensures forall n, i :: (n != name || i != index) && (n in layers ==> i >= 0) ==>
        GetValue(n, i) == old(GetValue(n, i))
    {
      if name !in layers {
        return;
      }
      var layer := layers[name];
      if index >= layer.Length {
        return;
      }
      layer[index] := value;
      assert forall n :: n in layers && n != name ==> layers[n][..] == old(layers[n][..]);
    }

    /** Reads one cell of one layer, or `-1` for an unknown name or an index past the end. */
    function GetValue(name: string, index: int): (value: int)
      requires name in layers ==> index >= 0
      reads this, layers.Values
      ensures name !in layers || index >= layers[name].Length ==> value == -1
      ensures name in layers && index < layers[name].Length ==> value == Contents()[name][index]
    {
      if name !in layers then -1
      else
        var layer := layers[name];
        if index >= layer.Length then -1 else layer[index]
    }
  }
}

=== FILE: entity_manager.dfy ===
/**
  `EntityManager`: per map cell, the id of the entity standing there (0 for
  none) and one integer of data (the radius it was stamped with), kept in two
  parallel arrays of the map's size.
*/
module EntityManagement {
  import opened CSharp

  /**
    `GetData(uint entity)` on the two columns: the data of the first cell that
    holds `entity`, or -1 when no cell does.
  */
  function LookupData(ids: seq<UInt32>, values: seq<int>, entity: UInt32): (v: int)
    requires |ids| == |values|
    ensures (forall k :: 0 <= k < |ids| ==> ids[k] != entity) ==> v == -1
    ensures forall k :: 0 <= k < |ids| && ids[k] == entity && (forall j :: 0 <= j < k ==> ids[j] != entity) ==>
      v == values[k]
  {
    var i := IndexOf(ids, entity);
    if i < 0 then -1 else values[i]
  }

  class EntityManager {
    const entities: array<UInt32>
    const data: array<int>

    ghost predicate Valid() {
      entities.Length == data.Length
    }

    /** A map of `mapSize` empty cells: every id and every datum is 0. */
    constructor (mapSize: nat)
      ensures Valid() && fresh(entities) && fresh(data)
      ensures NumEntities() == mapSize
      ensures forall i :: 0 <= i < mapSize ==> entities[i] == 0 && data[i] == 0
    {
      entities := new UInt32[mapSize](_ => 0);
      data := new int[mapSize](_ => 0);
    }

    /** `numEntities`: the number of cells. */
    function NumEntities(): nat {
      entities.Length
    }

    /** The id at a cell, or 0 for an index past the end (a negative index throws in the source). */
    function GetEntity(index: int): (e: UInt32)
      requires index >= 0
      reads entities
      ensures index >= entities.Length ==> e == 0
      ensures index < entities.Length ==> e == entities[index]
    {
      if index >= entities.Length then 0 else entities[index]
    }

    /** The datum at a cell, or -1 for an index past the end (a negative index throws in the source). */
    function GetData(index: int): (v: int)
      requires index >= 0
      reads data
      ensures index >= data.Length ==> v == -1
      ensures index < data.Length ==> v == data[index]
    {
      if index >= data.Length then -1 else data[index]
    }

    /** `GetData(uint entity)`: the datum of the first cell holding `entity`, or -1. */
    function GetDataOfEntity(entity: UInt32): (v: int)
      requires Valid()
      reads entities, data
      ensures v == LookupData(entities[..], data[..], entity)
    {
      var i := IndexOf(entities[..], entity);
      if i < 0 then -1 else data[i]
    }

    /** Puts an entity and its datum on one cell and leaves every other cell alone. */
    method SetEntity(index: int, entity: UInt32, value: int)
      requires Valid() && 0 <= index < entities.Length
      modifies entities, data
      ensures entities[..] == old(entities[..])[index := entity]
      ensures data[..] == old(data[..])[index := value]
      ensures GetEntity(index) == entity && GetData(index) == value
    {
      entities[index] := entity;
      data[index] := value;
    }
  }
}

=== FILE: grid.dfy ===
/**
  The 32 x 32 map and the row-major index arithmetic of `Stamping`: a cell
  `(x, y)` lives at index `y * width + x`.
*/
module MapGrid {
  import opened CSharp
  import opened Points
  import opened Rectangles

  const MAP_DIM: int := 32
  const MAP_HALF_DIM: int := 16
  const MAP_AREA: int := MAP_DIM * MAP_DIM

  /** The map's bounds relative to its centre cell `(16, 16)`: columns and rows -16 .. 15. */
  const MapRect: Rectangle := NewRectangle(MAP_HALF_DIM - 1, MAP_HALF_DIM - 1, -MAP_HALF_DIM, -MAP_HALF_DIM)

  predicate InMap(p: Point2) {
    0 <= p.x < MAP_DIM && 0 <= p.y < MAP_DIM
  }

  /** `GetCoord(int i)`: column `i % 32` (C# remainder) and row `i >> 5` (an arithmetic shift, i.e. floor). */
  function GetCoord(i: int): Point2 {
    Point2(Rem(i, MAP_DIM), i / 32)
  }

  /** `GetIndex(Point2 coord)` on the 32-wide map. */
  function GetIndex(p: Point2): int {
    p.y * MAP_DIM + p.x
  }

  /** `GetCoord(int i, int width)`: column `i % width`, row `floor(i / width)`. */
  function GetCoordIn(i: int, width: int): Point2
    requires width != 0
  {
    Point2(Rem(i, width), FloorDiv(i, width))
  }

  /** `GetIndex(Point2 coord, int dim)`. */
  function GetIndexIn(p: Point2, dim: int): int {
    p.y * dim + p.x
  }

  /** Every map index names a cell of the map, and indexing that cell gives the index back. */
  lemma CoordRoundTrip(i: int)
    requires 0 <= i < MAP_AREA
    ensures InMap(GetCoord(i)) && GetIndex(GetCoord(i)) == i
  {
    RemNonNegative(i, MAP_DIM);
  }

  /** Every cell of the map has an index in the map. */
  lemma IndexInRange(p: Point2)
    requires InMap(p)
    ensures 0 <= GetIndex(p) < MAP_AREA
  {
  }

  /** Every cell of the map has an index in the map, and that index leads back to the cell. */
  lemma IndexRoundTrip(p: Point2)
    requires InMap(p)
    ensures 0 <= GetIndex(p) < MAP_AREA && GetCoord(GetIndex(p)) == p
  {
    var i := GetIndex(p);
    RemNonNegative(i, MAP_DIM);
    DivModUnique(i, MAP_DIM, p.y, p.x);
  }

  /** For any width, a non-negative index survives the trip to a coordinate and back. */
  lemma CoordInRoundTrip(i: int, width: int)
    requires i >= 0 && width > 0
    ensures 0 <= GetCoordIn(i, width).x < width && GetCoordIn(i, width).y >= 0
    ensures GetIndexIn(GetCoordIn(i, width), width) == i
  {
    RemNonNegative(i, width);
    DivModBasics(i, width);
  }

  /** A cell whose column lies within the width survives the trip to an index and back. */
  lemma IndexInRoundTrip(p: Point2, width: int)
    requires width > 0 && 0 <= p.x < width && p.y >= 0
    ensures GetIndexIn(p, width) >= 0
    ensures GetCoordIn(GetIndexIn(p, width), width) == p
  {
    var i := GetIndexIn(p, width);
    DivModUnique(i, width, p.y, p.x);
    RemNonNegative(i, width);
  }
}

=== FILE: kernel.dfy ===
/**
  The falloff kernel: a square buffer of side `2r + 1` whose cell at offset
  `(x, y)` from the centre `(r, r)` holds the falloff curve's value at the
  normalised squared distance `clamp01((x*x + y*y) / (r*r))`, scaled to 0 .. 255.
*/
module Kernel {
  import opened CSharp
  import opened Points
  import opened MapGrid

  /**
    The falloff curve as the kernel sees it: `Curve(d, r)` is
    `RoundToInt(falloff.Evaluate(d / (r*r)) * 255)` for a squared distance `d`
    already clamped to at most `r*r`. The curve itself is a parameter.
  */
  type Curve = (int, int) -> int

  /** The kernel value for squared distance `d`: the curve at `d`, clamped to the radius. */
  function Falloff(curve: Curve, radius: int, d: int): int {
    curve(if d < radius * radius then d else radius * radius, radius)
  }

  /** Side of the kernel buffer. */
  function Line(radius: int): int {
    2 * radius + 1
  }

  /** What `DrawFalloff` stores in buffer cell `i`. */
  function KernelAt(curve: Curve, radius: int, i: int): int {
    var c := GetCoordIn(i, Line(radius));
    var x, y := c.x - radius, c.y - radius;
    Falloff(curve, radius, x * x + y * y)
  }

  /** Buffer index of the cell at offset `(x, y)` from the kernel's centre. */
  function Offset(radius: int, x: int, y: int): int {
    GetIndexIn(Point2(x + radius, y + radius), Line(radius))
  }

  /** `GetStampBuffer(radius)`: a fresh, zeroed buffer of side `2r + 1`. */
  method GetStampBuffer(radius: int) returns (buffer: array<int>)
    ensures fresh(buffer)
    ensures buffer.Length == Line(radius) * Line(radius)
    ensures forall i :: 0 <= i < buffer.Length ==> buffer[i] == 0
  {
    var line := 2 * radius + 1;
    buffer := new int[line * line](_ => 0);
  }

  /** `DrawFalloff(buffer, radius, falloff)`: fills every cell with its kernel value. */
  method DrawFalloff(buffer: array<int>, radius: int, curve: Curve)
    modifies buffer
    ensures forall i :: 0 <= i < buffer.Length ==> buffer[i] == KernelAt(curve, radius, i)
  {
    var line := 2 * radius + 1;
    var i := 0;
    while i < buffer.Length
      invariant 0 <= i <= buffer.Length
      invariant forall k :: 0 <= k < i ==> buffer[k] == KernelAt(curve, radius, k)
    {
      var x := Rem(i, line) - radius;
      var y := FloorDiv(i, line) - radius;
      buffer[i] := Falloff(curve, radius, x * x + y * y);
      i := i + 1;
    }
  }

  /**
    The cell at offset `(x, y)`, for `|x|, |y| <= r`, lies inside the buffer and
    holds the falloff at squared distance `x*x + y*y`.
  */
  lemma KernelAtOffset(curve: Curve, radius: int, x: int, y: int)
    requires radius >= 0 && -radius <= x <= radius && -radius <= y <= radius
    ensures 0 <= Offset(radius, x, y) < Line(radius) * Line(radius)
    ensures KernelAt(curve, radius, Offset(radius, x, y)) == Falloff(curve, radius, x * x + y * y)
  {
    var line := Line(radius);
    IndexInRoundTrip(Point2(x + radius, y + radius), line);
    MulMonotone(y + radius + 1, line, line);
  }

  /**
    The kernel depends only on the distance from the centre: mirroring an
    offset in either axis, or swapping its axes, reads the same value.
  */
  lemma KernelSymmetric(curve: Curve, radius: int, x: int, y: int)
    requires radius >= 0 && -radius <= x <= radius && -radius <= y <= radius
    ensures KernelAt(curve, radius, Offset(radius, -x, y)) == KernelAt(curve, radius, Offset(radius, x, y))
    ensures KernelAt(curve, radius, Offset(radius, x, -y)) == KernelAt(curve, radius, Offset(radius, x, y))
    ensures KernelAt(curve, radius, Offset(radius, y, x)) == KernelAt(curve, radius, Offset(radius, x, y))
  {
    NegMul(x, x);
    NegMul(-x, x);
    NegMul(y, y);
    NegMul(-y, y);
    KernelAtOffset(curve, radius, x, y);
    KernelAtOffset(curve, radius, -x, y);
    KernelAtOffset(curve, radius, x, -y);
    KernelAtOffset(curve, radius, y, x);
  }

  /**
    The centre holds the curve at distance 0, and every cell at or beyond the
    radius holds the same value: the curve at distance 1.
  */
  lemma KernelCentreAndRim(curve: Curve, radius: int, x: int, y: int)
    requires radius >= 0 && -radius <= x <= radius && -radius <= y <= radius
    ensures KernelAt(curve, radius, Offset(radius, 0, 0)) == curve(0, radius)
    ensures x * x + y * y >= radius * radius ==>
      KernelAt(curve, radius, Offset(radius, x, y)) == curve(radius * radius, radius)
  {
    KernelAtOffset(curve, radius, 0, 0);
    KernelAtOffset(curve, radius, x, y);
  }
}

=== FILE: point2.dfy ===
/**
  `Point2`: an immutable integer 2-vector with componentwise arithmetic.
  C#'s `int` is read as unbounded; the float constructor, `* float`, the
  `Vector2` conversions and `GetHashCode` are not part of this model.
*/
module Points {
  import opened CSharp

  datatype Point2 = Point2(x: int, y: int)

  /** The copy constructor `new Point2(p)`. */
  function Copy(p: Point2): (q: Point2)
    ensures Eq(q, p)
  {
    Point2(p.x, p.y)
  }

  function Add(a: Point2, b: Point2): (c: Point2)
    ensures c.x == a.x + b.x && c.y == a.y + b.y
  {
    Point2(a.x + b.x, a.y + b.y)
  }

  function Sub(a: Point2, b: Point2): (c: Point2)
    ensures Add(c, b) == a
  {
    Point2(a.x - b.x, a.y - b.y)
  }

  function Neg(a: Point2): (c: Point2)
    ensures Add(a, c) == Zero
  {
    Point2(-a.x, -a.y)
  }

  function Scale(p: Point2, c: int): (q: Point2)
    ensures q.x == p.x * c && q.y == p.y * c
  {
    Point2(p.x * c, p.y * c)
  }

  /** `p / c` divides each component with C#'s truncating integer division. */
  function Divide(p: Point2, c: int): (q: Point2)
    requires c != 0
    ensures Abs(p.x - q.x * c) < Abs(c) && Abs(p.y - q.y * c) < Abs(c)
    ensures p.x >= 0 ==> p.x - q.x * c >= 0
    ensures p.x <= 0 ==> p.x - q.x * c <= 0
    ensures p.y >= 0 ==> p.y - q.y * c >= 0
    ensures p.y <= 0 ==> p.y - q.y * c <= 0
  {
    DivTruncates(p.x, c);
    DivTruncates(p.y, c);
    Point2(Div(p.x, c), Div(p.y, c))
  }

  /** `operator ==`: both components agree. */
  predicate Eq(a: Point2, b: Point2) {
    a.x == b.x && a.y == b.y
  }

  /** `operator !=`. */
  predicate NotEq(a: Point2, b: Point2) {
    !Eq(a, b)
  }

  /** What `Equals(object)` may be handed: a boxed `Point2` or any other object. */
  datatype Boxed = BoxedPoint(p: Point2) | OtherObject

  /** `Equals(object)`: false for anything that is not a `Point2`, otherwise componentwise. */
  predicate Equals(self: Point2, o: Boxed) {
    match o
    case OtherObject => false
    case BoxedPoint(po) => po.x == self.x && po.y == self.y
  }

  const Zero := Point2(0, 0)
  const One := Point2(1, 1)
  const Up := Point2(0, 1)
  const Right := Point2(1, 0)
  const Down := Point2(0, -1)
  const Left := Point2(-1, 0)

  /** `==` is value equality, `!=` its negation, and `Equals` on a boxed point agrees with `==`. */
  lemma EqualityOperators(a: Point2, b: Point2, o: Boxed)
    ensures Eq(a, b) <==> a == b
    ensures NotEq(a, b) <==> a != b
    ensures Equals(a, BoxedPoint(b)) <==> Eq(a, b)
    ensures Equals(a, o) ==> o == BoxedPoint(a)
  {
  }

  /** `+` is commutative and associative, with `zero` as its identity. */
  lemma AddLaws(a: Point2, b: Point2, c: Point2)
    ensures Add(a, b) == Add(b, a)
    ensures Add(Add(a, b), c) == Add(a, Add(b, c))
    ensures Add(a, Zero) == a && Add(Zero, a) == a
  {
  }

  /** Subtraction undoes addition and is addition of the negation; negation is an involution. */
  lemma SubLaws(a: Point2, b: Point2)
    ensures Sub(Add(a, b), b) == a
    ensures Sub(a, b) == Add(a, Neg(b))
    ensures Neg(Neg(a)) == a
  {
  }

  /** The named unit vectors come in opposite pairs and add up to `one`. */
  lemma Directions()
    ensures Down == Neg(Up) && Left == Neg(Right)
    ensures Add(Up, Right) == One
  {
  }

  /** `* int` distributes over `+` and composes multiplicatively. */
  lemma ScaleLaws(a: Point2, b: Point2, c: int, d: int)
    ensures Scale(Add(a, b), c) == Add(Scale(a, c), Scale(b, c))
    ensures Scale(Scale(a, c), d) == Scale(a, c * d)
    ensures Scale(a, -1) == Neg(a)
  {
    assert (a.x + b.x) * c == a.x * c + b.x * c;
    assert (a.y + b.y) * c == a.y * c + b.y * c;
  }

  /** Division rounds toward zero: (-7, 7) / 2 is (-3, 3), where floor division would give (-4, 3). */
  lemma DivideTruncates()
    ensures Divide(Point2(-7, 7), 2) == Point2(-3, 3)
    ensures Divide(Point2(7, -7), -2) == Point2(-3, 3)
    ensures (-7) / 2 == -4
  {
  }

  /** Scaling and then dividing by the same non-zero factor gives the point back. */
  lemma {:induction false} DivideUndoesScale(p: Point2, c: int)
    requires c != 0
    ensures Divide(Scale(p, c), c) == p
  {
    DivideComponent(p.x, c);
    DivideComponent(p.y, c);
  }

  lemma DivideComponent(a: int, c: int)
    requires c != 0
    ensures Div(a * c, c) == a
  {
    var A: int, C: int := Abs(a), Abs(c);
    assert Abs(a * c) == A * C by {
      if a < 0 && c < 0 { assert a * c == (-a) * (-c); }
      else if a < 0 { assert a * c == -((-a) * c); }
      else if c < 0 { assert a * c == -(a * (-c)); }
    }
    DivModUnique(A * C, C, A, 0);
    assert a * c < 0 <==> (a < 0 && c > 0) || (a > 0 && c < 0);
  }
}

=== FILE: rectangle.dfy ===
/**
  `Rectangle`: an axis-aligned integer rectangle given by its four edges
  (left, right, top, bottom), and the clipping of one rectangle against another.
*/
module Rectangles {
  import opened Points

  datatype Rectangle = Rectangle(l: int, r: int, t: int, b: int)

  /** `new Rectangle(top, right, bottom, left)`: note the argument order. */
  function NewRectangle(top: int, right: int, bottom: int, left: int): (rect: Rectangle)
    ensures rect.t == top && rect.r == right && rect.b == bottom && rect.l == left
  {
    Rectangle(left, right, top, bottom)
  }

  /** The cells a rectangle covers, edges included. */
  predicate Contains(rect: Rectangle, p: Point2) {
    rect.l <= p.x <= rect.r && rect.b <= p.y <= rect.t
  }

  /**
    `GetOverlap(a, b, apos)`: the part of `a`, placed at `apos`, that lies inside
    `b`, expressed in `a`'s own frame. Every edge is the narrower of the two.
  */
  function GetOverlap(a: Rectangle, b: Rectangle, apos: Point2): (o: Rectangle)
    ensures a.l <= o.l && o.r <= a.r && a.b <= o.b && o.t <= a.t
    ensures b.l <= apos.x + o.l && apos.x + o.r <= b.r
    ensures b.b <= apos.y + o.b && apos.y + o.t <= b.t
    ensures forall p :: Contains(o, p) <==> Contains(a, p) && Contains(b, Add(apos, p))
  {
    NewRectangle(
      Min(apos.y + a.t, b.t) - apos.y,
      Min(apos.x + a.r, b.r) - apos.x,
      Max(apos.y + a.b, b.b) - apos.y,
      Max(apos.x + a.l, b.l) - apos.x
    )
  }

  function Min(u: int, v: int): int { if u <= v then u else v }
  function Max(u: int, v: int): int { if u >= v then u else v }

  /** When `a` placed at `apos` already lies inside `b`, clipping leaves it as it is. */
  lemma OverlapOfInside(a: Rectangle, b: Rectangle, apos: Point2)
    requires b.l <= apos.x + a.l && apos.x + a.r <= b.r
    requires b.b <= apos.y + a.b && apos.y + a.t <= b.t
    ensures GetOverlap(a, b, apos) == a
  {
  }

  /** Clipping twice against the same rectangle at the same position changes nothing more. */
  lemma OverlapIdempotent(a: Rectangle, b: Rectangle, apos: Point2)
    ensures GetOverlap(GetOverlap(a, b, apos), b, apos) == GetOverlap(a, b, apos)
  {
    var o := GetOverlap(a, b, apos);
    OverlapOfInside(o, b, apos);
  }
}

=== FILE: stamping.dfy ===
/**
  The stamping engine: a blob of falloff values, centred on an anchor cell,
  clipped against the 32 x 32 map and added (or subtracted) into a named layer;
  the land-value layer derived from pollution; and the place/remove toggle that
  a click on a map cell performs.
*/
module Stamping {
  import opened CSharp
  import opened Points
  import opened Rectangles
  import opened MapGrid
  import opened Kernel
  import opened DataManagement
  import opened EntityManagement

  /** `StampMode`: `ADD = 1`, `SUB = -1`. */
  datatype StampMode = ADD | SUB {
    function Sign(): int {
      if ADD? then 1 else -1
    }
  }

  /** One configured kind of entity (its display colour is not modelled). */
  datatype DataEntity = DataEntity(name: string, dataLayer: string, id: UInt32, radius: int, add: StampMode, remove: StampMode)

  /** One element of `croppedBuffer`: kernel column in `x`, kernel row in `z`, and the kernel weight in `y`. */
  datatype Vector3 = Vector3(x: int, y: int, z: int)

  // ---------------------------------------------------------------------------
  // Geometry of one stamp

  /** The kernel square `[-r, r]^2` clipped against the map, as offsets from the anchor. */
  function ClipRect(radius: int, coord: Point2): Rectangle {
    GetOverlap(NewRectangle(radius, radius, -radius, -radius), MapRect, Sub(coord, Point2(MAP_HALF_DIM, MAP_HALF_DIM)))
  }

  /** Columns and rows of a rectangle, edges included. */
  function Width(c: Rectangle): int { c.l * -1 + c.r + 1 }
  function Height(c: Rectangle): int { c.b * -1 + c.t + 1 }

  /**
    For an anchor on the map the clip contains the anchor itself, stays within
    the kernel, and translated by the anchor stays within the map.
  */
  lemma ClipBounds(radius: int, coord: Point2)
    requires radius >= 0 && InMap(coord)
    ensures var c := ClipRect(radius, coord);
      && -radius <= c.l <= 0 <= c.r <= radius
      && -radius <= c.b <= 0 <= c.t <= radius
      && 0 <= coord.x + c.l && coord.x + c.r < MAP_DIM
      && 0 <= coord.y + c.b && coord.y + c.t < MAP_DIM
      && 1 <= Width(c) && 1 <= Height(c)
  {
    var c := ClipRect(radius, coord);
    assert Contains(NewRectangle(radius, radius, -radius, -radius), Zero);
    assert Contains(MapRect, Add(Sub(coord, Point2(MAP_HALF_DIM, MAP_HALF_DIM)), Zero));
    assert Contains(c, Zero);
  }

  /** An offset is in the clip exactly when it is within the radius on both axes and lands on the map. */
  lemma ClipIsSquareOnMap(radius: int, coord: Point2, d: Point2)
    requires radius >= 0 && InMap(coord)
    ensures Contains(ClipRect(radius, coord), d) <==>
      -radius <= d.x <= radius && -radius <= d.y <= radius && InMap(Add(coord, d))
  {
    var apos := Sub(coord, Point2(MAP_HALF_DIM, MAP_HALF_DIM));
    assert Contains(ClipRect(radius, coord), d) <==>
      Contains(NewRectangle(radius, radius, -radius, -radius), d) && Contains(MapRect, Add(apos, d));
  }

  // ---------------------------------------------------------------------------
  // What a stamp does to a layer

  /**
    What a stamp adds to map cell `j`: when `j` lies within `radius` of the
    anchor on both axes, the signed falloff at its squared distance; otherwise 0.
  */
  function StampDelta(radius: int, coord: Point2, mode: StampMode, curve: Curve, j: int): int {
    var d := Sub(GetCoord(j), coord);
    if 0 <= j < MAP_AREA && -radius <= d.x <= radius && -radius <= d.y <= radius
    then mode.Sign() * Falloff(curve, radius, d.x * d.x + d.y * d.y)
    else 0
  }

  /** A layer after one stamp. */
  function Stamped(layer: seq<int>, radius: int, coord: Point2, mode: StampMode, curve: Curve): seq<int> {
    seq(|layer|, j requires 0 <= j < |layer| => layer[j] + StampDelta(radius, coord, mode, curve, j))
  }

  /**
    Every map cell `coord + d` within `radius` of the anchor on both axes
    changes by exactly `mode` times the falloff at squared distance `|d|^2`.
  */
  lemma StampedCell(layer: seq<int>, radius: int, coord: Point2, mode: StampMode, curve: Curve, d: Point2)
    requires |layer| == MAP_AREA && InMap(coord) && InMap(Add(coord, d))
    requires -radius <= d.x <= radius && -radius <= d.y <= radius
    ensures 0 <= GetIndex(Add(coord, d)) < MAP_AREA
    ensures Stamped(layer, radius, coord, mode, curve)[GetIndex(Add(coord, d))]
      == layer[GetIndex(Add(coord, d))] + mode.Sign() * Falloff(curve, radius, d.x * d.x + d.y * d.y)
  {
    IndexRoundTrip(Add(coord, d));
    assert Sub(GetCoord(GetIndex(Add(coord, d))), coord) == d;
  }

  /** A cell farther than the radius from the anchor on either axis is left as it was. */
  lemma StampedElsewhere(layer: seq<int>, radius: int, coord: Point2, mode: StampMode, curve: Curve, j: int)
    requires |layer| == MAP_AREA && 0 <= j < MAP_AREA
    requires var d := Sub(GetCoord(j), coord); !(-radius <= d.x <= radius && -radius <= d.y <= radius)
    ensures Stamped(layer, radius, coord, mode, curve)[j] == layer[j]
  {
  }

  /**
    Each touched cell `coord + d` changes by `mode` times the kernel buffer's
    cell at offset `d` from its centre, buffer index `(d.y + r)(2r + 1) + d.x + r`.
  */
  lemma StampedCellReadsKernel(layer: seq<int>, radius: int, coord: Point2, mode: StampMode, curve: Curve, d: Point2)
    requires |layer| == MAP_AREA && radius >= 0 && InMap(coord) && InMap(Add(coord, d))
    requires -radius <= d.x <= radius && -radius <= d.y <= radius
    ensures 0 <= GetIndex(Add(coord, d)) < MAP_AREA
    ensures 0 <= Offset(radius, d.x, d.y) < Line(radius) * Line(radius)
    ensures Stamped(layer, radius, coord, mode, curve)[GetIndex(Add(coord, d))]
      == layer[GetIndex(Add(coord, d))] + mode.Sign() * KernelAt(curve, radius, Offset(radius, d.x, d.y))
  {
    StampedCell(layer, radius, coord, mode, curve, d);
    KernelAtOffset(curve, radius, d.x, d.y);
  }

  /** A stamp followed by the opposite stamp at the same anchor and radius restores the layer exactly. */
  lemma StampThenUnstamp(layer: seq<int>, radius: int, coord: Point2, add: StampMode, remove: StampMode, curve: Curve)
    requires remove.Sign() == -add.Sign()
    ensures Stamped(Stamped(layer, radius, coord, add, curve), radius, coord, remove, curve) == layer
  {
    var once := Stamped(layer, radius, coord, add, curve);
    var twice := Stamped(once, radius, coord, remove, curve);
    forall j | 0 <= j < |layer| ensures twice[j] == layer[j] {
      assert StampDelta(radius, coord, remove, curve, j) == -StampDelta(radius, coord, add, curve, j);
    }
  }

  /** Stamps commute, so removing one blob undoes it even after others were stamped over it. */
  lemma StampsCommute(layer: seq<int>, r1: int, c1: Point2, m1: StampMode, r2: int, c2: Point2, m2: StampMode, curve: Curve)
    ensures Stamped(Stamped(layer, r1, c1, m1, curve), r2, c2, m2, curve)
         == Stamped(Stamped(layer, r2, c2, m2, curve), r1, c1, m1, curve)
  {
    var s12 := Stamped(Stamped(layer, r1, c1, m1, curve), r2, c2, m2, curve);
    var s21 := Stamped(Stamped(layer, r2, c2, m2, curve), r1, c1, m1, curve);
    forall j | 0 <= j < |layer| ensures s12[j] == s21[j] {
    }
  }

  // ---------------------------------------------------------------------------
  // The order in which StampBlobToMap walks the clip: row by row from the
  // bottom-left corner, `width` cells per row.

  function WalkOffset(c: Rectangle, k: int): Point2
    requires Width(c) > 0
  {
    Point2(c.l + k % Width(c), c.b + k / Width(c))
  }

  function WalkRank(c: Rectangle, d: Point2): int {
    (d.y - c.b) * Width(c) + (d.x - c.l)
  }

  lemma WalkOffsetRank(c: Rectangle, k: int)
    requires Width(c) > 0 && 0 <= k < Width(c) * Height(c)
    ensures Contains(c, WalkOffset(c, k)) && WalkRank(c, WalkOffset(c, k)) == k
  {
    var w := Width(c);
    DivModBasics(k, w);
    if k / w >= Height(c) {
      MulMonotone(Height(c), k / w, w);
      assert false;
    }
  }

  lemma WalkRankOffset(c: Rectangle, d: Point2)
    requires Contains(c, d)
    ensures 0 <= WalkRank(c, d) < Width(c) * Height(c)
    ensures WalkOffset(c, WalkRank(c, d)) == d
  {
    var w := Width(c);
    DivModUnique(WalkRank(c, d), w, d.y - c.b, d.x - c.l);
    MulMonotone(d.y - c.b + 1, Height(c), w);
  }

  lemma WalkStep(k: int, w: int)
    requires k >= 0 && w > 0
    ensures 0 <= k % w < w
    ensures (k + 1) % w == if k % w + 1 == w then 0 else k % w + 1
    ensures (k + 1) / w == if k % w + 1 == w then k / w + 1 else k / w
  {
    DivModBasics(k, w);
    if k % w + 1 == w {
      DivModUnique(k + 1, w, k / w + 1, 0);
    } else {
      DivModUnique(k + 1, w, k / w, k % w + 1);
    }
  }

  lemma ModSucc(n: int, w: int)
    requires 0 <= n < w
    ensures (n + 1) % w == if n + 1 == w then 0 else n + 1
  {
    if n + 1 == w {
      DivModUnique(n + 1, w, 1, 0);
    } else {
      DivModUnique(n + 1, w, 0, n + 1);
    }
  }

  /** The clip of an anchor on the map holds at least the anchor's own cell. */
  lemma ClipArea(radius: int, coord: Point2)
    requires radius >= 0 && InMap(coord)
    ensures Width(ClipRect(radius, coord)) >= 1 && Width(ClipRect(radius, coord)) * Height(ClipRect(radius, coord)) >= 1
  {
    var c := ClipRect(radius, coord);
    ClipBounds(radius, coord);
    MulMonotone(1, Height(c), Width(c));
  }

  /** The `k`-th element `StampBlobToMap` writes into `croppedBuffer`. */
  function CroppedSample(curve: Curve, radius: int, c: Rectangle, k: int): Vector3
    requires Width(c) > 0
  {
    var d := WalkOffset(c, k);
    Vector3(radius + d.x, Falloff(curve, radius, d.x * d.x + d.y * d.y), radius + d.y)
  }

  /** The kernel-buffer index of walk step `k`. */
  function BufferIndex(radius: int, c: Rectangle, k: int): int
    requires Width(c) > 0
  {
    var d := WalkOffset(c, k);
    Offset(radius, d.x, d.y)
  }

  /** Walk step `k` reads a cell inside the kernel buffer, at the kernel coordinates `CroppedSample` records. */
  lemma BufferWalk(curve: Curve, radius: int, coord: Point2, k: int)
    requires radius >= 0 && InMap(coord)
    requires Width(ClipRect(radius, coord)) > 0 && 0 <= k < Width(ClipRect(radius, coord)) * Height(ClipRect(radius, coord))
    ensures var c := ClipRect(radius, coord); var s := CroppedSample(curve, radius, c, k);
      && 0 <= BufferIndex(radius, c, k) < Line(radius) * Line(radius)
      && KernelAt(curve, radius, BufferIndex(radius, c, k)) == s.y
      && GetCoordIn(BufferIndex(radius, c, k), Line(radius)) == Point2(s.x, s.z)
  {
    var c := ClipRect(radius, coord);
    var d := WalkOffset(c, k);
    assert -radius <= d.x <= radius && -radius <= d.y <= radius by {
      ClipBounds(radius, coord);
      WalkOffsetRank(c, k);
    }
    assert BufferIndex(radius, c, k) == Offset(radius, d.x, d.y);
    KernelAtOffset(curve, radius, d.x, d.y);
    IndexInRoundTrip(Point2(d.x + radius, d.y + radius), Line(radius));
  }

  /** `kernel` is the drawn falloff buffer: side `2r + 1`, every cell holding its kernel value. */
  ghost predicate IsKernel(kernel: seq<int>, curve: Curve, radius: int) {
    && |kernel| == Line(radius) * Line(radius)
    && forall i :: 0 <= i < |kernel| ==> kernel[i] == KernelAt(curve, radius, i)
  }

  /** Reading walk step `k` out of a drawn kernel buffer yields the weight `CroppedSample` records. */
  lemma ReadSample(kernel: seq<int>, curve: Curve, radius: int, coord: Point2, k: int)
    requires radius >= 0 && InMap(coord)
    requires Width(ClipRect(radius, coord)) > 0 && 0 <= k < Width(ClipRect(radius, coord)) * Height(ClipRect(radius, coord))
    requires IsKernel(kernel, curve, radius)
    ensures var c := ClipRect(radius, coord); var s := CroppedSample(curve, radius, c, k);
      && 0 <= BufferIndex(radius, c, k) < |kernel|
      && kernel[BufferIndex(radius, c, k)] == s.y
      && GetCoordIn(BufferIndex(radius, c, k), Line(radius)) == Point2(s.x, s.z)
  {
    BufferWalk(curve, radius, coord, k);
  }

  /** Within a row the walk moves one buffer cell right; at a row's end it jumps to the next row's start. */
  lemma BufferWalkStep(radius: int, c: Rectangle, k: int)
    requires radius >= 0 && Width(c) > 0 && k >= 0
    ensures BufferIndex(radius, c, k + 1) ==
      if k % Width(c) + 1 == Width(c) then BufferIndex(radius, c, k) + 1 - Width(c) + Line(radius)
      else BufferIndex(radius, c, k) + 1
  {
    WalkStep(k, Width(c));
    var row := c.b + k / Width(c) + radius;
    MulMonotone(row + 1, row + 1, Line(radius));
  }

  /**
    One step of the first loop: advancing the column `n` and, at a row's end,
    the row start `start` keeps `start + n` on the walk's buffer index.
  */
  lemma CropStep(radius: int, c: Rectangle, i: int, n: int, start: int)
    requires radius >= 0 && Width(c) > 0 && i >= 0
    requires n == i % Width(c) && start + n == BufferIndex(radius, c, i)
    ensures (n + 1) % Width(c) == (i + 1) % Width(c)
    ensures (n + 1) % Width(c) == 0 ==> start + Line(radius) == BufferIndex(radius, c, i + 1)
    ensures (n + 1) % Width(c) != 0 ==> start + (n + 1) % Width(c) == BufferIndex(radius, c, i + 1)
  {
    BufferWalkStep(radius, c, i);
    WalkStep(i, Width(c));
    ModSucc(n, Width(c));
  }

  /**
    The set-up of the first loop: `width` and `len` are the clip's positive
    column count and cell count, and `start` (with `n = 0`) is the buffer
    index of the clip's bottom-left cell, the walk's first step.
  */
  lemma CropStart(radius: int, c: Rectangle)
    requires Width(c) >= 1
    ensures GetIndexIn(Point2(radius + c.l, radius + c.b), radius * 2 + 1) == BufferIndex(radius, c, 0)
  {
    DivModUnique(0, Width(c), 0, 0);
    assert WalkOffset(c, 0) == Point2(c.l, c.b);
  }

  /**
    One iteration of the first loop: the buffer cell at `start + n` holds
    walk step `i`'s sample, and advancing `n` (and `start` at a row's end)
    moves on to step `i + 1`.
  */
  lemma CropIteration(kernel: seq<int>, curve: Curve, radius: int, coord: Point2, i: int, n: int, start: int)
    requires radius >= 0 && InMap(coord)
    requires Width(ClipRect(radius, coord)) > 0 && 0 <= i < Width(ClipRect(radius, coord)) * Height(ClipRect(radius, coord))
    requires IsKernel(kernel, curve, radius)
    requires n == i % Width(ClipRect(radius, coord)) && start + n == BufferIndex(radius, ClipRect(radius, coord), i)
    ensures 0 <= start + n < |kernel|
    ensures var bc := GetCoordIn(start + n, Line(radius)); var samples := CroppedSamples(curve, radius, coord);
      i < |samples| && Vector3(bc.x, kernel[start + n], bc.y) == samples[i]
    ensures var c := ClipRect(radius, coord); var m := (n + 1) % Width(c);
      && m == (i + 1) % Width(c)
      && (m == 0 ==> start + Line(radius) == BufferIndex(radius, c, i + 1))
      && (m != 0 ==> start + m == BufferIndex(radius, c, i + 1))
  {
    ReadSample(kernel, curve, radius, coord, i);
    CropStep(radius, ClipRect(radius, coord), i, n, start);
  }

  /** Walk step `k` lands on a map cell, and that cell's offset from the anchor is the step's offset. */
  lemma WalkTarget(radius: int, coord: Point2, k: int)
    requires radius >= 0 && InMap(coord)
    requires 0 <= k < Width(ClipRect(radius, coord)) * Height(ClipRect(radius, coord))
    ensures var c := ClipRect(radius, coord); var target := GetIndex(Add(coord, WalkOffset(c, k)));
      && 0 <= target < MAP_AREA
      && Sub(GetCoord(target), coord) == WalkOffset(c, k)
  {
    var c := ClipRect(radius, coord);
    ClipBounds(radius, coord);
    var d := WalkOffset(c, k);
    WalkOffsetRank(c, k);
    ClipIsSquareOnMap(radius, coord, d);
    IndexRoundTrip(Add(coord, d));
  }

  /**
    Walk step `k` lands on map cell `j` exactly when `j` lies in the clip and
    `k` is its rank: the walk visits every clipped cell once and nothing else.
  */
  lemma WalkHits(radius: int, coord: Point2, k: int, j: int)
    requires radius >= 0 && InMap(coord)
    requires 0 <= k < Width(ClipRect(radius, coord)) * Height(ClipRect(radius, coord))
    requires 0 <= j < MAP_AREA
    ensures var c := ClipRect(radius, coord); var d := Sub(GetCoord(j), coord);
      GetIndex(Add(coord, WalkOffset(c, k))) == j <==> Contains(c, d) && WalkRank(c, d) == k
  {
    var c := ClipRect(radius, coord);
    ClipBounds(radius, coord);
    WalkTarget(radius, coord, k);
    WalkOffsetRank(c, k);
    var dj := Sub(GetCoord(j), coord);
    if Contains(c, dj) && WalkRank(c, dj) == k {
      WalkRankOffset(c, dj);
      CoordRoundTrip(j);
      assert GetCoord(j) == Add(coord, WalkOffset(c, k));
    }
  }

  /** Everything `StampBlobToMap` puts into `croppedBuffer`, in order. */
  function CroppedSamples(curve: Curve, radius: int, coord: Point2): (s: seq<Vector3>)
    requires radius >= 0 && InMap(coord)
    ensures Width(ClipRect(radius, coord)) > 0
    ensures |s| == Width(ClipRect(radius, coord)) * Height(ClipRect(radius, coord))
    ensures forall k :: 0 <= k < |s| ==> s[k] == CroppedSample(curve, radius, ClipRect(radius, coord), k)
  {
    ClipArea(radius, coord);
    var c := ClipRect(radius, coord);
    seq(Width(c) * Height(c), k requires 0 <= k < Width(c) * Height(c) => CroppedSample(curve, radius, c, k))
  }

  /**
    The set-up of the first loop of `StampBlobToMap`: the kernel's side, the
    buffer index of the clip's bottom-left cell, and the clip's width and
    cell count.
  */
  method CropSetup(radius: int, cropped: Rectangle) returns (bufferWidth: int, start: int, width: int, len: int)
    requires Width(cropped) >= 1
    ensures bufferWidth == Line(radius) && start == BufferIndex(radius, cropped, 0)
    ensures width == Width(cropped) && len == Width(cropped) * Height(cropped)
  {
    bufferWidth := radius * 2 + 1;
    start := GetIndexIn(Point2(radius + cropped.l, radius + cropped.b), bufferWidth);
    width := cropped.l * -1 + cropped.r + 1;
    len := width * (cropped.b * -1 + cropped.t + 1);
    CropStart(radius, cropped);
  }

  /**
    The first loop of `StampBlobToMap`: walks the clip row by row, keeping the
    buffer index as `start + n`, and records each cell's kernel coordinates and
    weight in `croppedBuffer`, which has one entry per clip cell.
  */
  method CropKernel(buffer: array<int>, croppedBuffer: array<Vector3>, radius: int, coord: Point2,
                    bufferWidth: int, start: int, width: int, ghost curve: Curve)
    requires radius >= 0 && InMap(coord) && bufferWidth == Line(radius)
    requires IsKernel(buffer[..], curve, radius)
    requires width == Width(ClipRect(radius, coord))
    requires croppedBuffer.Length == Width(ClipRect(radius, coord)) * Height(ClipRect(radius, coord))
    requires start == BufferIndex(radius, ClipRect(radius, coord), 0)
    modifies croppedBuffer
    ensures croppedBuffer[..] == CroppedSamples(curve, radius, coord)
  {
    ghost var cropped := ClipRect(radius, coord);
    ghost var kernel := buffer[..];
    ghost var samples := CroppedSamples(curve, radius, coord);
    ClipArea(radius, coord);
    DivModUnique(0, width, 0, 0);
    var start := start;
    var n := 0;

    for i := 0 to croppedBuffer.Length
      invariant n == i % width
      invariant start + n == BufferIndex(radius, cropped, i)
      invariant croppedBuffer[..i] == samples[..i]
    {
      CropIteration(kernel, curve, radius, coord, i, n, start);
      var bc := GetCoordIn(start + n, bufferWidth);
      croppedBuffer[i] := Vector3(bc.x, buffer[start + n], bc.y);
      n := (n + 1) % width;
      if n == 0 {
        start := start + bufferWidth;
      }
    }
    assert croppedBuffer[..] == croppedBuffer[..croppedBuffer.Length];
  }

  /**
    The first half of `StampBlobToMap`: clips the kernel square against the
    map, draws the kernel, and copies the clipped cells into a fresh
    `croppedBuffer`.
  */
  method CropStamp(radius: int, coord: Point2, curve: Curve) returns (croppedBuffer: array<Vector3>)
    requires radius >= 0 && InMap(coord)
    ensures fresh(croppedBuffer)
    ensures croppedBuffer[..] == CroppedSamples(curve, radius, coord)
  {
    var blitRect := NewRectangle(radius, radius, -radius, -radius);
    var cropped := GetOverlap(blitRect, MapRect, Sub(coord, Point2(MAP_HALF_DIM, MAP_HALF_DIM)));
    var buffer := GetStampBuffer(radius);
    DrawFalloff(buffer, radius, curve);
    assert IsKernel(buffer[..], curve, radius);
    ClipArea(radius, coord);
    var bufferWidth, start, width, len := CropSetup(radius, cropped);
    croppedBuffer := new Vector3[len];
    CropKernel(buffer, croppedBuffer, radius, coord, bufferWidth, start, width, curve);
  }

  /** Every sample lands on a map cell when placed relative to the anchor. */
  predicate SamplesLand(samples: seq<Vector3>, radius: int, coord: Point2) {
    forall k :: 0 <= k < |samples| ==> InMap(SampleCell(samples[k], radius, coord))
  }

  /** The map cell a sample is added into: the anchor plus the sample's kernel coordinates minus the radius. */
  function SampleCell(sample: Vector3, radius: int, coord: Point2): Point2 {
    Point2(coord.x + sample.x - radius, coord.y + sample.z - radius)
  }

  /** The effect of the second loop of `StampBlobToMap`: the first `i` samples added, in order, into the layer. */
  function Blit(layer: seq<int>, samples: seq<Vector3>, radius: int, coord: Point2, mode: StampMode, i: int): (r: seq<int>)
    requires |layer| == MAP_AREA && SamplesLand(samples, radius, coord) && 0 <= i <= |samples|
    ensures |r| == MAP_AREA
  {
    if i == 0 then layer
    else
      var prev := Blit(layer, samples, radius, coord, mode, i - 1);
      var cell := SampleCell(samples[i - 1], radius, coord);
      IndexInRange(cell);
      var j := GetIndex(cell);
      prev[j := prev[j] + samples[i - 1].y * mode.Sign()]
  }

  lemma CroppedSamplesLand(curve: Curve, radius: int, coord: Point2)
    requires radius >= 0 && InMap(coord)
    ensures SamplesLand(CroppedSamples(curve, radius, coord), radius, coord)
  {
    var c := ClipRect(radius, coord);
    var samples := CroppedSamples(curve, radius, coord);
    forall k | 0 <= k < |samples| ensures InMap(SampleCell(samples[k], radius, coord)) {
      WalkOffsetRank(c, k);
      ClipIsSquareOnMap(radius, coord, WalkOffset(c, k));
      assert SampleCell(samples[k], radius, coord) == Add(coord, WalkOffset(c, k));
    }
  }

  /** One more sample changes only its own map cell, by its weight times the mode. */
  lemma BlitStepAt(layer: seq<int>, samples: seq<Vector3>, radius: int, coord: Point2, mode: StampMode, k: int, j: int)
    requires |layer| == MAP_AREA && SamplesLand(samples, radius, coord) && 0 <= k < |samples| && 0 <= j < MAP_AREA
    ensures Blit(layer, samples, radius, coord, mode, k + 1)[j] == Blit(layer, samples, radius, coord, mode, k)[j]
      + if j == GetIndex(SampleCell(samples[k], radius, coord)) then samples[k].y * mode.Sign() else 0
  {
  }

  /** Cropped sample `k` lands on walk step `k`'s map cell and carries exactly that cell's stamp weight. */
  lemma SampleDelta(curve: Curve, radius: int, coord: Point2, mode: StampMode, k: int)
    requires radius >= 0 && InMap(coord)
    requires 0 <= k < Width(ClipRect(radius, coord)) * Height(ClipRect(radius, coord))
    ensures var c := ClipRect(radius, coord); var sample := CroppedSample(curve, radius, c, k);
      && GetIndex(SampleCell(sample, radius, coord)) == GetIndex(Add(coord, WalkOffset(c, k)))
      && StampDelta(radius, coord, mode, curve, GetIndex(SampleCell(sample, radius, coord))) == sample.y * mode.Sign()
  {
    var c := ClipRect(radius, coord);
    var d := WalkOffset(c, k);
    WalkTarget(radius, coord, k);
    WalkOffsetRank(c, k);
    var sample := CroppedSample(curve, radius, c, k);
    assert SampleCell(sample, radius, coord) == Add(coord, d);
    var weight := Falloff(curve, radius, d.x * d.x + d.y * d.y);
    assert sample.y == weight;
    assert StampDelta(radius, coord, mode, curve, GetIndex(Add(coord, d))) == mode.Sign() * weight;
  }

  /**
    When sample `r` is the only one that lands on map cell `j` (or none does,
    for `r` out of range), the first `i` samples add to cell `j` exactly
    sample `r`'s weight, once `i` has passed `r`.
  */
  lemma {:induction false} BlitOnce(layer: seq<int>, samples: seq<Vector3>, radius: int, coord: Point2, mode: StampMode, i: int, j: int, r: int)
    requires |layer| == MAP_AREA && SamplesLand(samples, radius, coord) && 0 <= i <= |samples| && 0 <= j < MAP_AREA
    requires forall k :: 0 <= k < |samples| ==> (GetIndex(SampleCell(samples[k], radius, coord)) == j <==> k == r)
    ensures Blit(layer, samples, radius, coord, mode, i)[j] == layer[j] + if 0 <= r < i then samples[r].y * mode.Sign() else 0
  {
    if i > 0 {
      BlitOnce(layer, samples, radius, coord, mode, i - 1, j, r);
      BlitStepAt(layer, samples, radius, coord, mode, i - 1, j);
    }
  }

  /** The walk step that visits map cell `j`, or -1 when the clip does not cover `j`. */
  function RankOf(radius: int, coord: Point2, j: int): int
    requires radius >= 0 && InMap(coord)
  {
    ClipArea(radius, coord);
    var c := ClipRect(radius, coord);
    var d := Sub(GetCoord(j), coord);
    if Contains(c, d) then WalkRank(c, d) else -1
  }

  /** Of all the cropped samples, only the one at `RankOf(j)` lands on map cell `j`. */
  lemma OnlySampleOnCell(curve: Curve, radius: int, coord: Point2, j: int)
    requires radius >= 0 && InMap(coord) && 0 <= j < MAP_AREA
    ensures var samples := CroppedSamples(curve, radius, coord); var r := RankOf(radius, coord, j);
      && r < |samples|
      && forall k :: 0 <= k < |samples| ==> (GetIndex(SampleCell(samples[k], radius, coord)) == j <==> k == r)
  {
    var samples := CroppedSamples(curve, radius, coord);
    var c := ClipRect(radius, coord);
    var d := Sub(GetCoord(j), coord);
    if Contains(c, d) {
      WalkRankOffset(c, d);
    }
    forall k | 0 <= k < |samples|
      ensures GetIndex(SampleCell(samples[k], radius, coord)) == j <==> k == RankOf(radius, coord, j)
    {
      SampleDelta(curve, radius, coord, StampMode.ADD, k);
      WalkHits(radius, coord, k, j);
    }
  }

  /** The sample that lands on map cell `j` carries `j`'s stamp weight, and a cell no sample lands on has none. */
  lemma RankedDelta(curve: Curve, radius: int, coord: Point2, mode: StampMode, j: int)
    requires radius >= 0 && InMap(coord) && 0 <= j < MAP_AREA
    ensures var samples := CroppedSamples(curve, radius, coord); var r := RankOf(radius, coord, j);
      && r < |samples|
      && (0 <= r ==> samples[r].y * mode.Sign() == StampDelta(radius, coord, mode, curve, j))
      && (r < 0 ==> StampDelta(radius, coord, mode, curve, j) == 0)
  {
    var r := RankOf(radius, coord, j);
    var samples := CroppedSamples(curve, radius, coord);
    var d := Sub(GetCoord(j), coord);
    if Contains(ClipRect(radius, coord), d) {
      WalkRankOffset(ClipRect(radius, coord), d);
    }
    OnlySampleOnCell(curve, radius, coord, j);
    if 0 <= r {
      SampleDelta(curve, radius, coord, mode, r);
      assert GetIndex(SampleCell(samples[r], radius, coord)) == j;
    } else {
      CoordRoundTrip(j);
      ClipIsSquareOnMap(radius, coord, d);
      assert Add(coord, d) == GetCoord(j);
      assert !Contains(ClipRect(radius, coord), d);
      assert !(-radius <= d.x <= radius && -radius <= d.y <= radius);
    }
  }

  /** After all the cropped samples, map cell `j` has changed by exactly its stamp weight. */
  lemma BlitCell(layer: seq<int>, curve: Curve, radius: int, coord: Point2, mode: StampMode, j: int)
    requires |layer| == MAP_AREA && radius >= 0 && InMap(coord) && 0 <= j < MAP_AREA
    requires SamplesLand(CroppedSamples(curve, radius, coord), radius, coord)
    ensures var samples := CroppedSamples(curve, radius, coord);
      Blit(layer, samples, radius, coord, mode, |samples|)[j] == layer[j] + StampDelta(radius, coord, mode, curve, j)
  {
    var samples := CroppedSamples(curve, radius, coord);
    OnlySampleOnCell(curve, radius, coord, j);
    BlitOnce(layer, samples, radius, coord, mode, |samples|, j, RankOf(radius, coord, j));
    RankedDelta(curve, radius, coord, mode, j);
  }

  /** The second loop, over all the cropped samples, is exactly one stamp. */
  lemma BlitIsStamp(layer: seq<int>, curve: Curve, radius: int, coord: Point2, mode: StampMode)
    requires |layer| == MAP_AREA && radius >= 0 && InMap(coord)
    ensures SamplesLand(CroppedSamples(curve, radius, coord), radius, coord)
    ensures var samples := CroppedSamples(curve, radius, coord);
      Blit(layer, samples, radius, coord, mode, |samples|) == Stamped(layer, radius, coord, mode, curve)
  {
    CroppedSamplesLand(curve, radius, coord);
    var samples := CroppedSamples(curve, radius, coord);
    var blitted := Blit(layer, samples, radius, coord, mode, |samples|);
    var stamped := Stamped(layer, radius, coord, mode, curve);
    forall j | 0 <= j < MAP_AREA ensures blitted[j] == stamped[j] {
      BlitCell(layer, curve, radius, coord, mode, j);
    }
  }

  /** The second loop of `StampBlobToMap`: adds `mode` times each recorded weight into its map cell, in place. */
  method BlitCropped(mapData: array<int>, croppedBuffer: array<Vector3>, radius: int, coord: Point2, mode: StampMode)
    requires mapData.Length == MAP_AREA && SamplesLand(croppedBuffer[..], radius, coord)
    modifies mapData
    ensures mapData[..] == Blit(old(mapData[..]), croppedBuffer[..], radius, coord, mode, croppedBuffer.Length)
  {
    ghost var before := mapData[..];
    for i := 0 to croppedBuffer.Length
      invariant mapData[..] == Blit(before, croppedBuffer[..], radius, coord, mode, i)
    {
      var c := Point2(
        coord.x + croppedBuffer[i].x - radius,
        coord.y + croppedBuffer[i].z - radius);
      var j := GetIndex(c);
      mapData[j] := mapData[j] + croppedBuffer[i].y * mode.Sign();
    }
  }

  // ---------------------------------------------------------------------------
  // Entity kinds and the entity table

  /** The configured ids in table order: the keys of `entityMap`, each at its kind's index. */
  function KindIds(kinds: seq<DataEntity>): seq<UInt32> {
    seq(|kinds|, k requires 0 <= k < |kinds| => kinds[k].id)
  }

  /** Ids are positive (0 marks an empty cell) and unique, and radii are non-negative. */
  predicate KindsWellFormed(kinds: seq<DataEntity>) {
    && (forall k :: 0 <= k < |kinds| ==> kinds[k].id > 0 && kinds[k].radius >= 0)
    && (forall k1, k2 :: 0 <= k1 < k2 < |kinds| ==> kinds[k1].id != kinds[k2].id)
  }

  /** `dataEntities[entityMap[id]]`: the configured kind with that id. */
  function Owner(kinds: seq<DataEntity>, id: UInt32): DataEntity
    requires id in KindIds(kinds)
  {
    kinds[IndexOf(KindIds(kinds), id)]
  }

  lemma OwnerOfKind(kinds: seq<DataEntity>, k: int)
    requires KindsWellFormed(kinds) && 0 <= k < |kinds|
    ensures kinds[k].id in KindIds(kinds) && Owner(kinds, kinds[k].id) == kinds[k]
  {
    assert KindIds(kinds)[k] == kinds[k].id;
  }

  /** An empty cell stores radius 0; an occupied one holds a configured id and that kind's radius. */
  predicate TableConsistent(ids: seq<UInt32>, radii: seq<int>, kinds: seq<DataEntity>) {
    && |ids| == |radii|
    && forall k :: 0 <= k < |ids| ==>
         && (ids[k] == 0 ==> radii[k] == 0)
         && (ids[k] != 0 ==> ids[k] in KindIds(kinds) && radii[k] == Owner(kinds, ids[k]).radius)
  }

  /** In a consistent table, `GetData(uint)` on the id of an occupied cell returns that cell's own radius. */
  lemma LookupStoredRadius(ids: seq<UInt32>, radii: seq<int>, kinds: seq<DataEntity>, n: int)
    requires TableConsistent(ids, radii, kinds) && 0 <= n < |ids| && ids[n] != 0
    ensures LookupData(ids, radii, ids[n]) == radii[n]
  {
    var first := IndexOf(ids, ids[n]);
    assert ids[n] in ids;
    assert ids[first] == ids[n] && forall k :: 0 <= k < first ==> ids[k] != ids[n];
  }

  // ---------------------------------------------------------------------------
  // The whole engine as a value, and the toggle that a click performs

  /** The engine's state: every layer's contents, and the entity table's two columns. */
  datatype World = World(layers: map<string, seq<int>>, ids: seq<UInt32>, radii: seq<int>)

  predicate WorldValid(w: World, kinds: seq<DataEntity>) {
    && (forall name :: name in w.layers ==> |w.layers[name]| == MAP_AREA)
    && |w.ids| == MAP_AREA
    && KindsWellFormed(kinds)
    && TableConsistent(w.ids, w.radii, kinds)
  }

  /** The decision of a toggle: what the cell becomes, and which stamp to apply to which layer. */
  datatype ToggleStep = ToggleStep(newId: UInt32, newValue: int, mode: StampMode, radius: int, layer: string)

  /**
    The toggle as the source writes it: an empty cell takes the pressed kind
    and is stamped with its `add` mode; an occupied cell is emptied and stamped
    with the pressed kind's `remove` mode and layer, at the stored radius.
  */
  function ToggleAsWritten(ids: seq<UInt32>, radii: seq<int>, n: int, entity: DataEntity): ToggleStep
    requires 0 <= n < |ids| == |radii|
  {
    var eID := ids[n];
    if eID > 0 then ToggleStep(0, 0, entity.remove, LookupData(ids, radii, eID), entity.dataLayer)
    else ToggleStep(entity.id, entity.radius, entity.add, entity.radius, entity.dataLayer)
  }

  /**
    The toggle with removal undoing the entity that stands on the cell: its own
    kind's `remove` mode and layer, at its stored radius.
  */
  function ToggleDecision(ids: seq<UInt32>, radii: seq<int>, n: int, entity: DataEntity, kinds: seq<DataEntity>): ToggleStep
    requires 0 <= n < |ids| == |radii|
    requires ids[n] > 0 ==> ids[n] in KindIds(kinds)
  {
    var eID := ids[n];
    if eID > 0 then
      var owner := Owner(kinds, eID);
      ToggleStep(0, 0, owner.remove, LookupData(ids, radii, eID), owner.dataLayer)
    else ToggleStep(entity.id, entity.radius, entity.add, entity.radius, entity.dataLayer)
  }

  /**
    Carries out a toggle decision on the cell under `coord`: the cell is
    written first, then the stamp goes into the step's layer. When the store
    has no such layer the stamp throws (`GetLayer` answers `null`), so the
    cell keeps its new contents and no layer changes.
  */
  function ApplyStep(w: World, coord: Point2, step: ToggleStep, curve: Curve): World
    requires InMap(coord) && |w.ids| == |w.radii| == MAP_AREA
  {
    IndexInRange(coord);
    var n := GetIndex(coord);
    World(
      if step.layer in w.layers
      then w.layers[step.layer := Stamped(w.layers[step.layer], step.radius, coord, step.mode, curve)]
      else w.layers,
      w.ids[n := step.newId],
      w.radii[n := step.newValue])
  }

  function ToggleWorld(w: World, coord: Point2, entity: DataEntity, kinds: seq<DataEntity>, curve: Curve): World
    requires WorldValid(w, kinds) && InMap(coord) && entity in kinds
  {
    IndexInRange(coord);
    var n := GetIndex(coord);
    OccupantKind(w, kinds, n);
    ApplyStep(w, coord, ToggleDecision(w.ids, w.radii, n, entity, kinds), curve)
  }

  function ToggleWorldAsWritten(w: World, coord: Point2, entity: DataEntity, curve: Curve): World
    requires InMap(coord) && |w.ids| == |w.radii| == MAP_AREA
  {
    IndexInRange(coord);
    ApplyStep(w, coord, ToggleAsWritten(w.ids, w.radii, GetIndex(coord), entity), curve)
  }

  /** Whether the click throws: the layer its stamp goes into is not in the store. */
  predicate ToggleThrows(w: World, coord: Point2, entity: DataEntity, kinds: seq<DataEntity>)
    requires WorldValid(w, kinds) && InMap(coord)
  {
    IndexInRange(coord);
    var n := GetIndex(coord);
    OccupantKind(w, kinds, n);
    ToggleDecision(w.ids, w.radii, n, entity, kinds).layer !in w.layers
  }

  /**
    A kind configured on a layer the store does not have: clicking an empty
    cell with its key throws, after the cell was written with the kind's id
    and radius, and no layer changes. Under the corrected toggle, the next
    click on that cell, with any key, empties it, throws again, and leaves the
    layers as they were.
  */
  lemma UnknownLayerThrows(w: World, coord: Point2, entity: DataEntity, pressed: DataEntity, kinds: seq<DataEntity>, curve: Curve)
    requires WorldValid(w, kinds) && InMap(coord) && entity in kinds && pressed in kinds
    requires w.ids[GetIndex(coord)] == 0 && entity.dataLayer !in w.layers
    ensures ToggleThrows(w, coord, entity, kinds)
    ensures var w1 := ToggleWorld(w, coord, entity, kinds, curve);
      && w1.layers == w.layers
      && w1.ids == w.ids[GetIndex(coord) := entity.id] && w1.radii == w.radii[GetIndex(coord) := entity.radius]
      && WorldValid(w1, kinds)
      && ToggleThrows(w1, coord, pressed, kinds)
      && ToggleWorld(w1, coord, pressed, kinds, curve) == w
  {
    IndexRoundTrip(coord);
    var n := GetIndex(coord);
    var k :| 0 <= k < |kinds| && kinds[k] == entity;
    OwnerOfKind(kinds, k);
    ToggleKeepsValid(w, coord, entity, kinds, curve);
    var w1 := ToggleWorld(w, coord, entity, kinds, curve);
    ToggleDecides(w.ids, w.radii, n, entity, kinds);
    ToggleDecides(w1.ids, w1.radii, n, pressed, kinds);
    assert w1.ids[n] == entity.id && w1.radii[n] == entity.radius;
    var w2 := ToggleWorld(w1, coord, pressed, kinds, curve);
    assert w2.ids == w.ids;
    assert w2.radii == w.radii;
  }

  lemma OccupantKind(w: World, kinds: seq<DataEntity>, n: int)
    requires WorldValid(w, kinds) && 0 <= n < MAP_AREA
    ensures w.ids[n] > 0 ==> w.ids[n] in KindIds(kinds) && Owner(kinds, w.ids[n]) in kinds
  {
    if w.ids[n] == 0 {
      return;
    }
    var k := IndexOf(KindIds(kinds), w.ids[n]);
    assert Owner(kinds, w.ids[n]) == kinds[k];
  }

  /**
    On an empty cell a toggle places the pressed kind (its id and radius, its
    `add` mode); on an occupied cell it empties the cell and stamps with the
    occupant's `remove` mode on the occupant's layer, at the cell's own radius.
  */
  lemma ToggleDecides(ids: seq<UInt32>, radii: seq<int>, n: int, entity: DataEntity, kinds: seq<DataEntity>)
    requires TableConsistent(ids, radii, kinds) && 0 <= n < |ids|
    ensures ids[n] == 0 ==>
      ToggleDecision(ids, radii, n, entity, kinds) == ToggleStep(entity.id, entity.radius, entity.add, entity.radius, entity.dataLayer)
    ensures ids[n] != 0 ==>
      ToggleDecision(ids, radii, n, entity, kinds) == ToggleStep(0, 0, Owner(kinds, ids[n]).remove, radii[n], Owner(kinds, ids[n]).dataLayer)
  {
    if ids[n] != 0 {
      LookupStoredRadius(ids, radii, kinds, n);
    }
  }

  /** A toggle keeps the engine's state well formed. */
  lemma ToggleKeepsValid(w: World, coord: Point2, entity: DataEntity, kinds: seq<DataEntity>, curve: Curve)
    requires WorldValid(w, kinds) && InMap(coord) && entity in kinds
    ensures WorldValid(ToggleWorld(w, coord, entity, kinds, curve), kinds)
  {
    IndexRoundTrip(coord);
    var n := GetIndex(coord);
    var k :| 0 <= k < |kinds| && kinds[k] == entity;
    OwnerOfKind(kinds, k);
    var w' := ToggleWorld(w, coord, entity, kinds, curve);
    forall m | 0 <= m < |w'.ids|
      ensures w'.ids[m] == 0 ==> w'.radii[m] == 0
      ensures w'.ids[m] != 0 ==> w'.ids[m] in KindIds(kinds) && w'.radii[m] == Owner(kinds, w'.ids[m]).radius
    {
    }
  }

  /**
    Under the corrected toggle, placing a kind on an empty cell and then
    toggling that cell again, with any configured key, returns every layer and
    the entity table to what they were.
  */
  lemma PlaceThenRemoveRestores(w: World, coord: Point2, placed: DataEntity, pressed: DataEntity, kinds: seq<DataEntity>, curve: Curve)
    requires WorldValid(w, kinds) && InMap(coord) && placed in kinds && pressed in kinds
    requires w.ids[GetIndex(coord)] == 0
    requires placed.remove.Sign() == -placed.add.Sign()
    ensures WorldValid(ToggleWorld(w, coord, placed, kinds, curve), kinds)
    ensures ToggleWorld(ToggleWorld(w, coord, placed, kinds, curve), coord, pressed, kinds, curve) == w
  {
    IndexRoundTrip(coord);
    var n := GetIndex(coord);
    var k :| 0 <= k < |kinds| && kinds[k] == placed;
    OwnerOfKind(kinds, k);
    ToggleKeepsValid(w, coord, placed, kinds, curve);
    var w1 := ToggleWorld(w, coord, placed, kinds, curve);
    var place := ToggleDecision(w.ids, w.radii, n, placed, kinds);
    ToggleDecides(w.ids, w.radii, n, placed, kinds);
    assert w1 == ApplyStep(w, coord, place, curve);
    assert w1.ids[n] == placed.id && w1.radii[n] == placed.radius;
    var remove := ToggleDecision(w1.ids, w1.radii, n, pressed, kinds);
    ToggleDecides(w1.ids, w1.radii, n, pressed, kinds);
    assert ToggleWorld(w1, coord, pressed, kinds, curve) == ApplyStep(w1, coord, remove, curve);
    ApplyThenUndo(w, coord, place, remove, curve);
  }

  /**
    A step followed by one that restores the cell and stamps the same layer
    at the same radius with the opposite sign leaves the world as it was.
  */
  lemma ApplyThenUndo(w: World, coord: Point2, step: ToggleStep, undo: ToggleStep, curve: Curve)
    requires InMap(coord) && |w.ids| == |w.radii| == MAP_AREA
    requires undo.newId == w.ids[GetIndex(coord)] && undo.newValue == w.radii[GetIndex(coord)]
    requires undo.layer == step.layer && undo.radius == step.radius && undo.mode.Sign() == -step.mode.Sign()
    ensures ApplyStep(ApplyStep(w, coord, step, curve), coord, undo, curve) == w
  {
    IndexInRange(coord);
    var n := GetIndex(coord);
    var w2 := ApplyStep(ApplyStep(w, coord, step, curve), coord, undo, curve);
    if step.layer in w.layers {
      StampThenUnstamp(w.layers[step.layer], step.radius, coord, step.mode, undo.mode, curve);
    }
    assert w2.layers == w.layers;
    assert w2.ids == w.ids;
    assert w2.radii == w.radii;
  }

  /**
    The toggle as written agrees with the corrected one whenever the pressed
    kind is the kind standing on the cell, or the cell is empty.
  */
  lemma AsWrittenAgreesOnOwnKind(ids: seq<UInt32>, radii: seq<int>, n: int, entity: DataEntity, kinds: seq<DataEntity>)
    requires KindsWellFormed(kinds) && TableConsistent(ids, radii, kinds) && 0 <= n < |ids| && entity in kinds
    requires ids[n] != 0 ==> ids[n] == entity.id
    ensures ToggleAsWritten(ids, radii, n, entity) == ToggleDecision(ids, radii, n, entity, kinds)
  {
    var k :| 0 <= k < |kinds| && kinds[k] == entity;
    OwnerOfKind(kinds, k);
  }

  /**
    As written, placing kind `placed` and then pressing a kind `pressed` of
    another layer on the same cell leaves `placed`'s stamp in its layer and
    stamps `pressed`'s layer, at `placed`'s radius, with `pressed`'s `remove`
    mode.
  */
  lemma AsWrittenRemovesWithPressedKind(w: World, coord: Point2, placed: DataEntity, pressed: DataEntity, kinds: seq<DataEntity>, curve: Curve)
    requires WorldValid(w, kinds) && InMap(coord) && placed in kinds && pressed in kinds
    requires w.ids[GetIndex(coord)] == 0 && placed.dataLayer != pressed.dataLayer
    requires placed.dataLayer in w.layers && pressed.dataLayer in w.layers
    ensures var w2 := ToggleWorldAsWritten(ToggleWorldAsWritten(w, coord, placed, curve), coord, pressed, curve);
      && w2.layers[placed.dataLayer] == Stamped(w.layers[placed.dataLayer], placed.radius, coord, placed.add, curve)
      && w2.layers[pressed.dataLayer] == Stamped(w.layers[pressed.dataLayer], placed.radius, coord, pressed.remove, curve)
      && w2.ids == w.ids && w2.radii == w.radii
  {
    IndexRoundTrip(coord);
    var n := GetIndex(coord);
    var k :| 0 <= k < |kinds| && kinds[k] == placed;
    var w1 := ToggleWorldAsWritten(w, coord, placed, curve);
    assert w1.ids[n] == placed.id && w1.radii[n] == placed.radius;
    LookupStoredRadius(w1.ids, w1.radii, kinds, n) by {
      OwnerOfKind(kinds, k);
      ToggleKeepsValid(w, coord, placed, kinds, curve);
      AsWrittenAgreesOnOwnKind(w.ids, w.radii, n, placed, kinds);
    }
    var w2 := ToggleWorldAsWritten(w1, coord, pressed, curve);
    assert w2.ids == w.ids;
    assert w2.radii == w.radii;
  }

  /**
    As written, the second click still undoes the first when the pressed kind
    is not the occupant's but shares its layer and removes with the sign
    opposite to the occupant's `add` mode, as the occupant's own kind does.
  */
  lemma AsWrittenSameLayerUndoes(w: World, coord: Point2, placed: DataEntity, pressed: DataEntity, kinds: seq<DataEntity>, curve: Curve)
    requires WorldValid(w, kinds) && InMap(coord) && placed in kinds && pressed in kinds
    requires w.ids[GetIndex(coord)] == 0 && placed.dataLayer == pressed.dataLayer
    requires pressed.remove.Sign() == -placed.add.Sign()
    ensures ToggleWorldAsWritten(ToggleWorldAsWritten(w, coord, placed, curve), coord, pressed, curve) == w
  {
    IndexRoundTrip(coord);
    var n := GetIndex(coord);
    var k :| 0 <= k < |kinds| && kinds[k] == placed;
    var place := ToggleAsWritten(w.ids, w.radii, n, placed);
    var w1 := ApplyStep(w, coord, place, curve);
    assert w1 == ToggleWorldAsWritten(w, coord, placed, curve);
    assert w1.ids[n] == placed.id && w1.radii[n] == placed.radius;
    LookupStoredRadius(w1.ids, w1.radii, kinds, n) by {
      OwnerOfKind(kinds, k);
      ToggleKeepsValid(w, coord, placed, kinds, curve);
      AsWrittenAgreesOnOwnKind(w.ids, w.radii, n, placed, kinds);
    }
    var remove := ToggleAsWritten(w1.ids, w1.radii, n, pressed);
    assert ToggleWorldAsWritten(w1, coord, pressed, curve) == ApplyStep(w1, coord, remove, curve);
    ApplyThenUndo(w, coord, place, remove, curve);
  }

  /**
    The residue the as-written toggle leaves: placing an adding kind on an
    empty cell and pressing the key of a subtracting kind of another layer
    empties the cell again, but the placed kind's layer keeps the centre weight
    and the pressed kind's layer loses it, so the world does not return to
    where it was whenever the curve is nonzero at the centre.
  */
  lemma AsWrittenResidue(w: World, coord: Point2, placed: DataEntity, pressed: DataEntity, kinds: seq<DataEntity>, curve: Curve)
    requires WorldValid(w, kinds) && InMap(coord) && placed in kinds && pressed in kinds
    requires w.ids[GetIndex(coord)] == 0 && placed.dataLayer != pressed.dataLayer
    requires placed.dataLayer in w.layers && pressed.dataLayer in w.layers
    requires placed.add == ADD && pressed.remove == SUB && curve(0, placed.radius) != 0
    ensures 0 <= GetIndex(coord) < MAP_AREA
    ensures var w2 := ToggleWorldAsWritten(ToggleWorldAsWritten(w, coord, placed, curve), coord, pressed, curve);
      var n := GetIndex(coord);
      && w2.ids == w.ids
      && w2.layers[placed.dataLayer][n] == w.layers[placed.dataLayer][n] + curve(0, placed.radius)
      && w2.layers[pressed.dataLayer][n] == w.layers[pressed.dataLayer][n] - curve(0, placed.radius)
      && w2 != w
  {
    AsWrittenRemovesWithPressedKind(w, coord, placed, pressed, kinds, curve);
    assert Add(coord, Zero) == coord;
    StampedCell(w.layers[placed.dataLayer], placed.radius, coord, ADD, curve, Zero);
    StampedCell(w.layers[pressed.dataLayer], placed.radius, coord, SUB, curve, Zero);
  }

  /** Two kinds on two layers, each adding on placement and subtracting on removal, radius 0. */
  function ResidueKinds(): seq<DataEntity> {
    [DataEntity("factory", "pollution", 1, 0, ADD, SUB), DataEntity("park", "land_value", 2, 0, ADD, SUB)]
  }

  /** An empty map with both layers zeroed. */
  function EmptyWorld(): World {
    World(map["pollution" := Zeros(MAP_AREA), "land_value" := Zeros(MAP_AREA)], seq(MAP_AREA, _ => 0), Zeros(MAP_AREA))
  }

  /**
    A concrete input for `AsWrittenResidue`: the empty world, a factory placed
    at cell (0, 0), the park key pressed there, and a curve that is 1 everywhere.
  */
  lemma EmptyWorldIsInput()
    ensures WorldValid(EmptyWorld(), ResidueKinds()) && InMap(Zero) && EmptyWorld().ids[GetIndex(Zero)] == 0
    ensures ResidueKinds()[0].dataLayer != ResidueKinds()[1].dataLayer
    ensures ResidueKinds()[0].dataLayer in EmptyWorld().layers && ResidueKinds()[1].dataLayer in EmptyWorld().layers
    ensures ResidueKinds()[0].add == ADD && ResidueKinds()[1].remove == SUB && UnitCurve(0, ResidueKinds()[0].radius) != 0
  {
  }

  /** A falloff curve that is 1 everywhere. */
  function UnitCurve(d: int, r: int): int {
    1
  }

  // ---------------------------------------------------------------------------
  // The engine object

  /** The store as `Awake` sets it up: the layers "pollution" and "land_value", both zeroed. */
  method NewStore() returns (store: DataManager)
    ensures fresh(store) && store.Valid() && store.layerSize == MAP_AREA
    ensures store.layerNames == ["pollution", "land_value"]
    ensures store.layers.Keys == {"pollution", "land_value"}
    ensures fresh(store.layers["pollution"]) && fresh(store.layers["land_value"])
    ensures store.layers["pollution"][..] == Zeros(MAP_AREA) && store.layers["land_value"][..] == Zeros(MAP_AREA)
  {
    store := new DataManager(MAP_AREA);
    store.AddLayer("pollution");
    store.AddLayer("land_value");
    assert store.Contents()["pollution"] == Zeros(MAP_AREA);
    assert store.Contents()["land_value"] == Zeros(MAP_AREA);
  }

  class Stamping {
    const data: DataManager
    const entities: EntityManager
    const dataEntities: seq<DataEntity>
    const falloff: Curve

    /** The store and the entity table are well formed, map-sized, and do not share an array. */
    ghost predicate StoreValid()
      reads this, data
    {
      && data.Valid() && entities.Valid()
      && data.layerSize == MAP_AREA && entities.entities.Length == MAP_AREA
      && entities.data !in data.layers.Values
    }

    ghost predicate Valid()
      reads this, data, entities.entities, entities.data
    {
      && StoreValid()
      && KindsWellFormed(dataEntities)
      && TableConsistent(entities.entities[..], entities.data[..], dataEntities)
    }

    /** The engine's state as a value. */
    ghost function State(): World
      reads this, data, data.layers.Values, entities.entities, entities.data
    {
      World(data.Contents(), entities.entities[..], entities.data[..])
    }

    lemma StateValid()
      requires Valid()
      ensures WorldValid(State(), dataEntities)
    {
    }

    /**
      The data part of start-up: a 1024-cell store with the layers "pollution"
      and "land_value", an empty entity table, and land value derived from the
      (zero) pollution.
    */
    constructor (dataEntities: seq<DataEntity>, falloff: Curve)
      requires KindsWellFormed(dataEntities)
      ensures Valid() && this.dataEntities == dataEntities && this.falloff == falloff
      ensures data.layerNames == ["pollution", "land_value"]
      ensures data.layers.Keys == {"pollution", "land_value"}
      ensures data.layers["pollution"][..] == Zeros(MAP_AREA) && data.layers["land_value"][..] == seq(MAP_AREA, _ => 255)
      ensures forall i :: 0 <= i < MAP_AREA ==> entities.GetEntity(i) == 0 && entities.GetData(i) == 0
    {
      var store := NewStore();
      data := store;
      entities := new EntityManager(MAP_AREA);
      this.dataEntities := dataEntities;
      this.falloff := falloff;
      new;
      var pollution := data.layers["pollution"];
      var landValue := data.layers["land_value"];
      OnPollutionUpdated(pollution);
      assert pollution[..] == Zeros(MAP_AREA);
      assert landValue[..] == seq(MAP_AREA, _ => 255);
      assert TableConsistent(entities.entities[..], entities.data[..], dataEntities);
    }

    /**
      `StampBlobToMap`: clips the kernel against the map, copies the clipped
      cells into `croppedBuffer` row by row, then adds `mode` times each weight
      into the layer, in place. The result is `Stamped`; no other layer changes.
      With an unknown layer `GetLayer` answers `null` and the second loop's
      first write throws (`ok` is false): nothing changes.
    */
    method StampBlobToMap(radius: int, coord: Point2, dataLayer: string, mode: StampMode) returns (ok: bool)
      requires StoreValid() && radius >= 0 && InMap(coord)
      modifies if dataLayer in data.layers then {data.layers[dataLayer]} else {}
      ensures ok <==> dataLayer in data.layers
      ensures ok ==> data.Contents() == old(data.Contents())[dataLayer := Stamped(old(data.Contents()[dataLayer]), radius, coord, mode, falloff)]
      ensures !ok ==> data.Contents() == old(data.Contents())
    {
      var croppedBuffer := CropStamp(radius, coord, falloff);
      var mapData := data.GetLayer(dataLayer);
      if mapData == null {
        return false;
      }
      BlitLayer(mapData, dataLayer, croppedBuffer, radius, coord, mode);
      ok := true;
    }

    /** The second loop of `StampBlobToMap`, seen from the store: the layer becomes `Stamped`, the others stay. */
    method BlitLayer(mapData: array<int>, dataLayer: string, croppedBuffer: array<Vector3>, radius: int, coord: Point2, mode: StampMode)
      requires StoreValid() && radius >= 0 && InMap(coord)
      requires dataLayer in data.layers && mapData == data.layers[dataLayer]
      requires croppedBuffer[..] == CroppedSamples(falloff, radius, coord)
      modifies mapData
      ensures data.Contents() == old(data.Contents())[dataLayer := Stamped(old(data.Contents()[dataLayer]), radius, coord, mode, falloff)]
    {
      ghost var before := mapData[..];
      assert before == old(data.Contents())[dataLayer];
      CroppedSamplesLand(falloff, radius, coord);
      BlitCropped(mapData, croppedBuffer, radius, coord, mode);
      BlitIsStamp(before, falloff, radius, coord, mode);
      assert mapData[..] == Stamped(before, radius, coord, mode, falloff);
      forall n | n in data.layers && n != dataLayer
        ensures data.layers[n][..] == old(data.Contents())[n]
      {
        assert data.layers[n] != mapData;
      }
      SnapshotWrite(data.layers, dataLayer, old(data.Contents()));
    }

    /** `OnPollutionUpdated`: land value becomes 255 minus pollution, cell by cell. */
    method OnPollutionUpdated(pollution: array<int>)
      requires data.Valid() && data.layerSize == MAP_AREA && "land_value" in data.layers && pollution.Length <= MAP_AREA
      modifies data.layers["land_value"]
      ensures forall i :: 0 <= i < pollution.Length ==> data.layers["land_value"][i] == 255 - old(pollution[i])
      ensures forall i :: pollution.Length <= i < MAP_AREA ==> data.layers["land_value"][i] == old(data.layers["land_value"][i])
      ensures pollution != data.layers["land_value"] ==>
        && unchanged(pollution)
        && forall i :: 0 <= i < pollution.Length ==> data.layers["land_value"][i] + pollution[i] == 255
    {
      var landValue := data.GetLayer("land_value");
      for i := 0 to pollution.Length
        invariant forall k :: 0 <= k < i ==> landValue[k] == 255 - old(pollution[k])
        invariant forall k :: i <= k < MAP_AREA ==> landValue[k] == old(landValue[k])
        invariant pollution != landValue ==> unchanged(pollution)
      {
        landValue[i] := 255 - pollution[i];
      }
    }

    /**
      The click on the cell under `coord` with key `key` held (the toggle
      inside `Update`), corrected: an empty cell takes the pressed kind and is
      stamped; an occupied cell is emptied and its occupant's stamp undone
      with the occupant's own kind. The source removes with the pressed kind's
      mode and layer instead; that toggle is `ToggleWorldAsWritten`.
    */
    method Toggle(coord: Point2, key: int) returns (ok: bool)
      requires Valid() && InMap(coord) && 0 <= key < |dataEntities|
      modifies data.layers.Values, entities.entities, entities.data
      ensures Valid()
      ensures State() == ToggleWorld(old(State()), coord, dataEntities[key], dataEntities, falloff)
      ensures ok <==> !ToggleThrows(old(State()), coord, dataEntities[key], dataEntities)
    {
      var step := Decide(coord, key);
      ghost var w := State();
      StateValid();
      ToggleKeepsValid(w, coord, dataEntities[key], dataEntities, falloff);
      assert ToggleWorld(w, coord, dataEntities[key], dataEntities, falloff) == ApplyStep(w, coord, step, falloff);
      ok := Apply(coord, step);
      ValidFromWorld();
    }

    /**
      The writing half of the toggle: sets the cell, then stamps. `ok` is false
      when the stamp throws on an unknown layer, after the cell was written.
    */
    method Apply(coord: Point2, step: ToggleStep) returns (ok: bool)
      requires StoreValid() && InMap(coord) && step.radius >= 0
      modifies data.layers.Values, entities.entities, entities.data
      ensures ok <==> step.layer in data.layers
      ensures State() == ApplyStep(old(State()), coord, step, falloff)
    {
      IndexRoundTrip(coord);
      var n := GetIndex(coord);
      ghost var w := State();
      entities.SetEntity(n, step.newId, step.newValue);
      assert data.Contents() == w.layers;
      ok := StampBlobToMap(step.radius, coord, step.layer, step.mode);
      assert entities.entities[..] == w.ids[n := step.newId];
      assert entities.data[..] == w.radii[n := step.newValue];
    }

    /** A well-formed store and entity table whose state is a valid world make a valid engine. */
    lemma ValidFromWorld()
      requires StoreValid() && WorldValid(State(), dataEntities)
      ensures Valid()
    {
    }

    /**
      The reading half of the corrected toggle: an occupied cell is to be
      emptied and its occupant's stamp undone with the occupant's own kind
      (looked up as `entityMap` does), an empty cell to take the pressed kind.
    */
    method Decide(coord: Point2, key: int) returns (step: ToggleStep)
      requires Valid() && InMap(coord) && 0 <= key < |dataEntities|
      ensures 0 <= GetIndex(coord) < MAP_AREA
      ensures entities.entities[GetIndex(coord)] > 0 ==> entities.entities[GetIndex(coord)] in KindIds(dataEntities)
      ensures step == ToggleDecision(entities.entities[..], entities.data[..], GetIndex(coord), dataEntities[key], dataEntities)
      ensures step.radius >= 0
    {
      IndexRoundTrip(coord);
      var n := GetIndex(coord);
      var entity := dataEntities[key];
      var eID := entities.GetEntity(n);
      var mode := entity.add;
      var radius := entity.radius;
      var newEID := entity.id;
      var newVal := radius;
      var layer := entity.dataLayer;
      StateValid();
      OccupantKind(State(), dataEntities, n);
      if eID > 0 {
        var owner := dataEntities[IndexOf(KindIds(dataEntities), eID)];
        mode := owner.remove;
        layer := owner.dataLayer;
        radius := entities.GetDataOfEntity(eID);
        LookupStoredRadius(entities.entities[..], entities.data[..], dataEntities, n);
        newEID := 0;
        newVal := 0;
      }
      step := ToggleStep(newEID, newVal, mode, radius, layer);
    }
  }
}
